=== FILE: README.md ===
# SpookyGhost animation core in Dafny

This project models the deterministic core of SpookyGhost's animation subsystem and proves properties of it. It covers four parts:

- **Easing curve** (`EasingCurve`). A time cursor moves over `[start, end]`. It reflects at `start`, and at `end` it clamps, rewinds or ping-pongs according to the loop mode. Its value is a power of the time (LINEAR..QUINT), then scaled and shifted.
- **Animation group tree** (`AnimationTree`, `AnimationManager`). A group owns an ordered sequence of child nodes. `stop`, `update(dt)` and `reset` are passed to every child in order. `update` AND-reduces "every child is STOPPED" into the group's own state. The manager owns one root parallel group and forwards `update`, `reset`, `stop` and `clear` to it. Leaf animations (property, grid and script) stay abstract. Their payload is a type parameter, and their `update`, `stop` and `reset` are supplied as functions (`LeafOps`).
- **Save format** (`EnumCodecs`, `SaveRecords`):
  - The string spelling of the blending preset, animation type, easing type, direction and loop mode enums. An unknown string decodes to a fixed default.
  - The seven persisted curve fields.
  - The positional, name-checked load of grid-function parameters.
  - The node header, where a parent that does not resolve falls back to the manager's root group.

  A Lua table is a `map<string, Value>`. Pointers are saved as ids through a map the caller supplies and loaded back through its inverse.
- **Render progress** (`RenderProgress`):
  - The canvas resize levels.
  - The frame-save counter and the sprite-sheet destination cursor.
  - The integer sizing of frames and sheets, each side capped at the largest texture size.

Times and amounts are `real`. Nothing models IEEE float rounding.

## Model

| member | source | states |
|---|---|---|
| `EasingCurve.NewCurve` | src/EasingCurve.cpp:8-12 | A new curve moves forward from time 0 over [0, 1], with scale 1 and shift 0, so its time is in range |
| `EasingCurve.SetTime` | src/EasingCurve.cpp:18-26 | Only the time changes. It lands in [start, end] whenever start <= end. A time already in range is stored unchanged; one below start becomes start; one above end becomes end |
| `EasingCurve.Reset` | src/EasingCurve.cpp:28-31 | The time becomes start and no other field changes |
| `EasingCurve.Value` | src/EasingCurve.cpp:33-46 | For the polynomial shapes the value is time^k * scale + shift, with k = 1..5 for LINEAR..QUINT |
| `EasingCurve.Advance` | src/EasingCurve.cpp:58-81 | A step changes only the time and the live direction. Shape, loop mode, persisted direction, domain, scale and shift are untouched |
| `EasingCurve.AdvanceInside` | src/EasingCurve.cpp:60-64 | When the moved time stays in [start, end], only the time changes: by +dt going forward, by -dt going backward. The direction is kept |
| `EasingCurve.AdvanceBelowStart` | src/EasingCurve.cpp:65-69 | Going below start mirrors the time to 2*start - t and turns the cursor forward, in every loop mode |
| `EasingCurve.AdvanceAboveEnd` | src/EasingCurve.cpp:70-81 | Going above end: DISABLED freezes at end, still forward. REWIND gives t - end, still forward. PING_PONG gives 2*end - t and turns backward |
| `EasingCurve.AdvanceStaysInRange` | src/EasingCurve.cpp:58-81 | Under DISABLED or PING_PONG, a time in [start, end] stays there after any step with 0 <= dt <= end - start |
| `EasingCurve.LongStepEscapes` | src/EasingCurve.cpp:65-81 | One reflection is not enough for a step longer than the domain: a PING_PONG step of 3 from time 0 on [0, 1] lands at -1 |
| `EasingCurve.Next` | src/EasingCurve.cpp:58-83 | `next` returns the value of the advanced curve: the new time to the shape's power, scaled and shifted |
| `EasingCurve.ValueUnitBounds` | src/EasingCurve.cpp:37-46 | With scale 1 and shift 0, a polynomial curve whose time is in [0, 1] has a value in [0, 1], and the value does not decrease as the time grows |
| `EasingCurve.RunStaysBounded` | src/EasingCurve.cpp:58-83 | On [0, 1] with DISABLED or PING_PONG, any run of steps of at most 1 keeps the time in [0, 1]. So the value of a polynomial curve with the identity transform stays in [0, 1] |
| `EasingCurve.RewindLeavesDomain` | src/EasingCurve.cpp:74-75 | REWIND as written: on [0.5, 1] at time 1, a step of 0.2 lands at 0.2, below start |
| `EasingCurve.AdvanceRewindFromStart` | src/EasingCurve.cpp:74-75 | REWIND restarting from start with the overflow carried: short steps then keep the time in range in every loop mode. It agrees with the code when start is 0 or the mode is not REWIND |
| `AnimationTree.Stop` | src/AnimationGroup.cpp:12-18 | A stopped group is STOPPED and keeps its number of children |
| `AnimationTree.StopStopsSubtree` | src/AnimationGroup.cpp:12-18 | If leaf stop yields STOPPED, then after stop every node of the subtree is STOPPED, at every depth |
| `AnimationTree.StopAndResetReachEveryLeaf` | src/AnimationGroup.cpp:12-37 | Stop and reset are applied to every leaf of the subtree exactly once, in depth-first child order |
| `AnimationTree.Reset` | src/AnimationGroup.cpp:33-37 | Reset leaves the group's own state and its number of children unchanged |
| `AnimationTree.UpdateGroup` | src/AnimationGroup.cpp:20-31 | The child-by-child loop with its `allStopped` flag computes the tree update. The group ends STOPPED when every child is STOPPED afterwards, and otherwise keeps its state |
| `AnimationTree.Update` | src/AnimationGroup.cpp:20-31 | Update keeps a group a group with the same number of children, and a leaf a leaf |
| `AnimationTree.UpdateGroupState` | src/AnimationGroup.cpp:20-31 | Update never puts a group into a non-STOPPED state it was not already in. A group that was not STOPPED becomes STOPPED exactly when all its children end STOPPED. A group with no children ends STOPPED |
| `AnimationTree.UpdateStopsWhenLeavesStop` | src/AnimationGroup.cpp:20-31 | When every leaf ends STOPPED after update, the AND-reduction leaves every group of the subtree STOPPED too |
| `AnimationTree.UpdateDispatchesToEveryLeaf` | src/AnimationGroup.cpp:23-25 | Every leaf of the subtree receives the same dt: the leaves after update are the leaves before it, each updated by dt, in the same order |
| `AnimationTree.OperationsKeepShape` | src/AnimationGroup.cpp:12-37 | None of stop, update or reset adds, drops or reorders a node anywhere in the tree |
| `AnimationManager.NewManager` | src/AnimationManager.cpp:8-11 | A new manager's root is a group with no animations |
| `AnimationManager.Update` | src/AnimationManager.cpp:17-20 | Update is the root group's update. Each top-level animation is updated with dt and their number is kept. The manager ends STOPPED exactly when it was STOPPED or every top-level animation ends STOPPED. Otherwise its state is unchanged |
| `AnimationManager.Reset` | src/AnimationManager.cpp:22-25 | Reset resets every top-level animation and leaves the manager's state alone |
| `AnimationManager.Clear` | src/AnimationManager.cpp:27-30 | After clear there are no animations, and the root's own state is unchanged |
| `AnimationManager.ClearThenUpdateStops` | src/AnimationManager.cpp:17-30 | A cleared manager is STOPPED after its next update |
| `AnimationManager.Stop` | include/AnimationManager.h:20 | Stop is the root group's stop: each top-level animation is stopped, in order, their number is kept, and the manager's state is STOPPED |
| `AnimationManager.StopStopsEverything` | include/AnimationManager.h:20 | If leaf stop yields STOPPED, then after the manager's stop every animation it owns is STOPPED, at every depth |
| `EnumCodecs.EncodeBlending` | src/Serializers.cpp:42-62 | Decoding an encoded blending preset gives it back, for all five presets |
| `EnumCodecs.EncodeAnimType` | src/Serializers.cpp:101-127 | Decoding an encoded animation type gives it back, for all four types |
| `EnumCodecs.EncodeEasing` | src/Serializers.cpp:133-162 | Decoding an encoded easing type gives it back, for all eight types |
| `EnumCodecs.EncodeDirection` | src/Serializers.cpp:164-175 | Decoding an encoded direction gives it back |
| `EnumCodecs.EncodeLoopMode` | src/Serializers.cpp:177-191 | Decoding an encoded loop mode gives it back |
| `EnumCodecs.EncodersInjective` | src/Serializers.cpp:42-191 | Within each enum, distinct values are written as distinct strings |
| `EnumCodecs.UnknownStringsFallBack` | src/Serializers.cpp:279-415 | A string that no encoder writes decodes to the enum's default: DISABLED, PARALLEL_GROUP, LINEAR, FORWARD and DISABLED |
| `EnumCodecs.DecodeOnlyFromSpelling` | src/Serializers.cpp:279-415 | A decoder yields a value other than its default only from that value's own spelling |
| `SaveRecords.SavePtr` | src/Serializers.cpp:225 | A pointer with an id is written as that id; a null or unregistered pointer is written as Nil |
| `SaveRecords.LoadPtr` | src/Serializers.cpp:452 | A pointer field loads as an object exactly when it holds an id that names a loaded object, and then it is the object filed under that id; otherwise it reads as null |
| `SaveRecords.PtrRoundTrip` | src/Serializers.cpp:452 | When the id map and the object map undo each other, a registered pointer and a null pointer both load back as saved |
| `SaveRecords.SaveCurve` | src/Serializers.cpp:193-209 | The curve record holds exactly the seven fields type, direction, loop_mode, start_time, end_time, scale and shift |
| `SaveRecords.LoadCurve` | src/Serializers.cpp:417-433 | The load succeeds exactly when the seven fields are present with the right kinds. The enums are decoded and the numbers stored. The target curve's time and live direction are kept |
| `SaveRecords.CurveRoundTrip` | src/Serializers.cpp:417-433 | Loading a saved curve into any curve restores the seven persisted fields and keeps that curve's time and live direction |
| `SaveRecords.CurveSaveIgnoresCursor` | src/Serializers.cpp:199-205 | Time and live direction are not persisted: curves that differ only in them save identically |
| `SaveRecords.SaveParams` | src/Serializers.cpp:237-254 | Exactly one entry per parameter of the function, in parameter order. Each entry has the parameter's name and value0, or (value0, value1) for a two-component parameter |
| `SaveRecords.SaveGrid` | src/Serializers.cpp:221-259 | The function name and the parameter list are written exactly when a function is bound. The list then has one entry per function parameter |
| `SaveRecords.LoadParamsFrom` | src/Serializers.cpp:462-477 | A successful load from any entry onward keeps the number of parameter slots |
| `SaveRecords.LoadParamsFromSucceeds` | src/Serializers.cpp:462-477 | The loop from any entry onward succeeds exactly when every remaining entry loads (`EntryLoads`), skipping entries whose name does not match |
| `SaveRecords.LoadParams` | src/Serializers.cpp:462-477 | The list loads exactly when every entry is a table with a string name naming one of the function's parameters, and, where the name matches parameter j, slot j exists and the value has the parameter's kind; a mismatched name is skipped, not an error. A successful load keeps the number of slots; slot j takes entry j's value exactly when that entry names parameter j, and every other slot is kept |
| `SaveRecords.LoadParamsPointwise` | src/Serializers.cpp:462-477 | A successful parameter load is positional and name-checked. Slot j takes entry j's value only when that entry names parameter j: FLOAT writes value0 only, VECTOR2F writes value0 and value1. Every other slot is unchanged |
| `SaveRecords.ParamsRoundTrip` | src/Serializers.cpp:462-477 | Loading a function's saved parameters always succeeds. It restores every value0, and value1 of each two-component parameter. A FLOAT slot keeps its old value1, and slots beyond the function's parameters are untouched |
| `SaveRecords.FindFunction` | src/Serializers.cpp:457-459 | A function is found exactly when the record names one the catalog holds |
| `SaveRecords.LoadGridCommon` | src/Serializers.cpp:452-455 | The load succeeds exactly when speed, the curve table and its seven fields are present. Speed is the saved number, sprite is the resolved pointer and the curve is loaded from the curve table. The bound function and the parameter slots are untouched |
| `SaveRecords.LoadGridAsWritten` | src/Serializers.cpp:448-479 | As written: sprite, speed and curve come from the common fields. When no function is found the parameters are unchanged; when one is found the parameter list is loaded into the existing slots. The load succeeds exactly when those reads do. The bound function and the slot count never change |
| `SaveRecords.LoadGridAsWrittenLosesFunction` | src/Serializers.cpp:457-461 | A saved grid animation with a function, loaded as written into one without a function, comes back without a function. Saving it again drops function_name |
| `SaveRecords.LoadGrid` | src/Serializers.cpp:448-479 | The corrected loader: with no function found it is the common-field load. With one found, that function is bound, giving one cleared slot per parameter, and the parameter list is loaded into those slots. It succeeds exactly when those reads do |
| `SaveRecords.GridRoundTrip` | src/Serializers.cpp:448-479 | With the function bound, a saved grid animation loads back with its sprite, speed, persisted curve fields and function |
| `SaveRecords.GridParamsRoundTrip` | src/Serializers.cpp:457-478 | With the function bound, every parameter's value0 survives a save and load, and so does value1 of each two-component parameter |
| `SaveRecords.SaveAnimHeader` | src/Serializers.cpp:98-127 | The keys every node writes are exactly name, parent and type. The grid keys of the same table are `SaveGrid`'s record; the property animation keys are not modelled |
| `SaveRecords.LoadAnimHeader` | src/Serializers.cpp:481-522 | The load succeeds exactly when type and name are strings. The type is decoded with its fallback and the name is kept. A parent that resolves is kept; one that resolves to no loaded animation attaches the node to the root group |
| `SaveRecords.AnimHeaderRoundTrip` | src/Serializers.cpp:517-521 | A header survives a save and a load, whether its parent is a saved group or the root group, which has no id |
| `RenderProgress.ResizeAmount` | src/gui/RenderGuiWindow.cpp:28-48 | Every level magnifies by an amount between 1/8 and 8 |
| `RenderProgress.ResizeAmountIncreasing` | src/gui/RenderGuiWindow.cpp:28-48 | The amounts of the seven levels X1_8..X8 (0.125 to 8) strictly increase with the level |
| `RenderProgress.ResizeRoundTrip` | src/gui/RenderGuiWindow.cpp:28-71 | `setResize(resizeAmount(l)) == l` for every level |
| `RenderProgress.SetResize` | src/gui/RenderGuiWindow.cpp:55-71 | setResize rounds up to the nearest level: the chosen amount is at least the requested one (up to 8), and every smaller level falls short of it |
| `RenderProgress.SetResizeMonotone` | src/gui/RenderGuiWindow.cpp:55-71 | setResize is monotone. Amounts <= 0.125 give X1_8 and amounts > 4 give X8 |
| `RenderProgress.SourceCanvas` | src/gui/RenderGuiWindow.cpp:219 | Frames come from the resized canvas unless the resize amount is exactly 1; `SignalFrameSaved` moves the sheet cursor by the size of this canvas |
| `RenderProgress.CursorStep` | src/gui/RenderGuiWindow.cpp:220-225 | When a further frame would not fit, the cursor wraps to column 0 and moves down exactly one frame height; otherwise it moves one frame width right on the same row. If a frame fits the sheet, the next frame always fits horizontally |
| `RenderProgress.CursorAfter` | src/gui/RenderGuiWindow.cpp:217-225 | When a frame fits the sheet width, the cursor never puts a frame past the sheet's right edge or left of its origin |
| `RenderProgress.CursorLayout` | src/gui/RenderGuiWindow.cpp:217-225 | From the origin, frame k lands at the row-major slot of k in a grid of sheetWidth / width columns |
| `RenderProgress.SignalFrameSaved` | src/gui/RenderGuiWindow.cpp:210-238 | A saved frame is counted. When the count reaches numFrames, both render flags drop and the count returns to 0. The sheet cursor moves only while a sprite sheet is being written, by the size of the canvas `SourceCanvas` picks |
| `RenderProgress.RenderFinishes` | src/gui/RenderGuiWindow.cpp:227-231 | A render with m frames still to save stays active for m - 1 signals and ends at the m-th, with the count back at 0 |
| `RenderProgress.CancelRender` | src/gui/RenderGuiWindow.cpp:240-257 | After cancel both flags are false. An active render's count is reset to 0, and with no render active nothing changes |
| `RenderProgress.IdleAtZeroPreserved` | src/gui/RenderGuiWindow.cpp:185-257 | Frame signals, cancel and both start buttons keep the counter at 0 whenever no render is active, so cancel always leaves the counter at 0 |
| `RenderProgress.StartFrames` | src/gui/RenderGuiWindow.cpp:166-183 | Saving frames sets the frames flag unless the filename prefix is empty, in which case nothing changes |
| `RenderProgress.StartSpritesheet` | src/gui/RenderGuiWindow.cpp:185-203 | Saving a sprite sheet sets its flag and puts the cursor at the origin unless the prefix is empty |
| `RenderProgress.Cap` | src/gui/RenderGuiWindow.cpp:122-127 | A capped dimension is the smaller of the uncapped value and the largest texture size |
| `RenderProgress.FrameSize` | src/gui/RenderGuiWindow.cpp:120-127 | Each frame side is the truncated scaled canvas side capped at the largest texture size |
| `RenderProgress.SheetSize` | src/gui/RenderGuiWindow.cpp:136-143 | Each sheet side is at most the largest texture size, and equals sides times frame size when that fits |
| `RenderProgress.Trunc` | src/gui/RenderGuiWindow.cpp:150 | The float-to-int cast truncates toward zero |
| `RenderProgress.RecomputeNumFrames` | src/gui/RenderGuiWindow.cpp:150-152 | The frame count is the truncated duration times fps when that is at least 1, and exactly 1 otherwise |
| `RenderProgress.CeilSqrt` | src/gui/RenderGuiWindow.cpp:134 | sideX is the smallest natural whose square reaches numFrames |
| `RenderProgress.SideYAsWritten` | src/gui/RenderGuiWindow.cpp:135 | The row count as written is sideX or sideX - 1 and leaves room for every frame. Only the last row can be empty |
| `RenderProgress.SideYAsWrittenSpareRow` | src/gui/RenderGuiWindow.cpp:135 | As written, 6 frames get a 3 x 3 sheet whose last row stays empty |
| `RenderProgress.SideY` | src/gui/RenderGuiWindow.cpp:135 | With the test that accepts an exact fit, the rows hold every frame and no row is left empty |
| `RenderProgress.SheetGrid` | src/gui/RenderGuiWindow.cpp:134-135 | The grid the code builds: sideX is the least column count whose square holds every frame, and there are sideX or sideX - 1 rows by the test as written. All frames fit and only the last row can be empty |
| `RenderProgress.SheetHoldsEveryFrame` | src/gui/RenderGuiWindow.cpp:134-136 | On an uncapped sheet the cursor column count is sideX, and every frame's slot lies inside the sideX by SideY grid. The sheet as written has at least that many rows, so it holds every frame too |

## Left out

- Value: defined only for LINEAR..QUINT. SINE, EXPO and CIRC use `sinf`, `powf` and `sqrtf` and are left unspecified, so `Value` and `Next` require a polynomial shape.
- Float rounding: all times, amounts and scales are mathematical reals. The sprite-sheet side `ceil(sqrt(n))` is modelled as the exact integer ceiling square root.
- EasingCurve setters and header: `setStart`, `setEnd`, `setScale`, `setShift`, `setType`, `setDirection` and `setLoopMode` are taken as plain field stores. The initial `direction` set in the header is a parameter of `NewCurve`.
- AnimationManager.NewManager: the root group's initial state comes from IAnimation, which is not part of this model, so it is a parameter.
- Leaf animations: property, grid and script `update`, `stop`, `reset` and `play` are not shown, so they are abstract functions in `LeafOps`.
- SequentialAnimationGroup: its `update` is not shown. The `Group` node models the base-class group behaviour of src/AnimationGroup.cpp, which the parallel group is taken to use; ParallelAnimationGroup is not part of this model.
- The manager's `pause()` and `play()`: they call IAnimation's `pause` and `play`, whose bodies are not shown, so the delegation is not modelled.
- `AnimationManager::removeSprite`: it is declared with no body shown.
- Lua plumbing: buffer and indent formatting and `LuaUtils` field retrieval are not modelled. A field that is absent or holds the wrong kind of value makes a load fail (`Failure`), with these exceptions: a `sprite` or `parent` field that is absent, not an id, or an unknown id reads as null (`LoadPtr`), a null parent becoming the root (`LoadAnimHeader`); a `function_name` that is absent, not a string, or not in the catalog means "no function" (`FindFunction`), the saver omitting it when no function is bound; a parameter entry whose name is not that of parameter i is skipped (`LoadParamsFrom`); and an unknown enum spelling decodes to the fixed default (`EnumCodecs`).
- Pointer↔id hash maps: `serializePtr` and `deserializePtr` are modelled as an id map and its inverse. A pointer with no id is written as `Nil`, and a field that names no known id reads back as null.
- Parameter entry index: `ar.index()` is taken to be 0-based. An entry whose index is beyond the function's parameters or the animation's slots is an unchecked access in the code. The model reports it as `IndexOutOfRange`.
- SaveRecords.BindFunction: the values `setFunction` gives new parameter slots are not shown. The model clears them to (0, 0), which no round-trip property depends on.
- PropertyAnimation save and load (src/Serializers.cpp:211-219, 435-446) and `Properties::assign` are not modelled.
- Sprite, Canvas, Texture and SaveAnim field copying are not modelled. They copy rendering state with no logic.
- RenderGuiWindow: ImGui widgets, file dialogs, status messages, output file names, V-Sync, the demo-version branch, the manager `play()` when a render starts, and canvas and spritesheet texture resizing are not modelled. The unsigned wrap-around of `numSavedFrames` is not modelled either.
- REWIND: the evidently intended behaviour restarts from `start` carrying the overflow. The code subtracts `end`. `Advance` and `Next` follow the code; the intended version is `AdvanceRewindFromStart` (see Findings).
- The evidently intended invariant that time stays in `[start, end]` holds in the code only for steps no longer than the domain. `AdvanceStaysInRange` states that bound and `LongStepEscapes` shows it is needed.

## Findings

| source | as written | input that shows it | evidently intended | confidence | as-written member | corrected member |
|---|---|---|---|---|---|---|
| src/EasingCurve.cpp:74-75 | REWIND sets `time = time - end` | start 0.5, end 1, time 1, forward, dt 0.2: time becomes 0.2, below start | `time = start + (time - end)`, restarting from start with the overflow | medium, not executed | `EasingCurve.RewindLeavesDomain` | `EasingCurve.AdvanceRewindFromStart` |
| src/gui/RenderGuiWindow.cpp:135 | rows are `sideX - 1` only when `sideX*(sideX-1) > numFrames` | numFrames 6: sideX 3, 3*2 is not > 6, so the sheet is 3 x 3 with an empty last row (also 2, 12, 20, ...) | `>=`, so an exact fit drops the spare row | medium, not executed | `RenderProgress.SideYAsWrittenSpareRow` | `RenderProgress.SideY` |
| src/Serializers.cpp:457-478 | the function found by name is used to check and load parameters but is never bound to the animation | a grid animation saved with function "wave" (one FLOAT parameter), loaded into an animation with no function and one parameter slot: it comes back with no function, and saving it again drops function_name and the parameters. The slot count of a freshly created GridAnimation is not shown; with no slots, the model of the code as written reads past the slots instead | bind the found function (`setFunction`) before loading its parameters | medium, not executed | `SaveRecords.LoadGridAsWrittenLosesFunction` | `SaveRecords.GridRoundTrip` |

=== FILE: animation_manager.dfy ===
/**
 * The animation manager of src/AnimationManager.cpp and
 * include/AnimationManager.h: it owns one root parallel group holding every
 * top-level animation and forwards the tree-wide operations to it.
 */
module AnimationManager {
  import opened AnimationTree

  /** The manager's single root group. */
  datatype Manager<L> = Manager(root: Node<L>)
  {
    /** The root is always a group. */
    predicate Valid() {
      root.Group?
    }

    /** `anims()`: the root group's children. */
    function Anims(): seq<Node<L>>
      requires Valid()
    {
      root.children
    }

    /** `state()`: the root group's own state. */
    function State(): AnimationTree.State
      requires Valid()
    {
      root.groupState
    }
  }

  /**
   * The constructor: a root parallel group with no animations. The group's
   * initial state comes from IAnimation, which is not part of this model, so
   * it is a parameter.
   */
  function NewManager<L>(initial: AnimationTree.State): (m: Manager<L>)
    ensures m.Valid()
    ensures m.Anims() == []
    ensures m.State() == initial
  {
    Manager(Group(initial, []))
  }

  /**
   * `update(dt)`: the root group's update. The top-level animations keep
   * their number and each is updated with dt; the manager ends STOPPED
   * exactly when it was STOPPED already or every top-level animation ended
   * STOPPED.
   */
  function Update<L>(m: Manager<L>, dt: real, ops: LeafOps<L>): (r: Manager<L>)
    requires m.Valid()
    ensures r.Valid()
    ensures |r.Anims()| == |m.Anims()|
    ensures forall i :: 0 <= i < |m.Anims()| ==> r.Anims()[i] == AnimationTree.Update(m.Anims()[i], dt, ops)
    ensures r.State() == Stopped <==> m.State() == Stopped || ChildrenStopped(r.Anims())
    ensures r.State() != Stopped ==> r.State() == m.State()
  {
    UpdateGroupState(m.root, dt, ops);
    Manager(AnimationTree.Update(m.root, dt, ops))
  }

  /** `reset()`: every top-level animation is reset; the manager's state is untouched. */
  function Reset<L>(m: Manager<L>, ops: LeafOps<L>): (r: Manager<L>)
    requires m.Valid()
    ensures r.Valid()
    ensures r.State() == m.State()
    ensures |r.Anims()| == |m.Anims()|
    ensures forall i :: 0 <= i < |m.Anims()| ==> r.Anims()[i] == AnimationTree.Reset(m.Anims()[i], ops)
  {
    Manager(AnimationTree.Reset(m.root, ops))
  }

  /**
   * `stop()`: the root group's stop. Every top-level animation is stopped,
   * in order, and afterwards the manager is STOPPED.
   */
  function Stop<L>(m: Manager<L>, ops: LeafOps<L>): (r: Manager<L>)
    requires m.Valid()
    ensures r.Valid()
    ensures r.State() == Stopped
    ensures |r.Anims()| == |m.Anims()|
    ensures forall i :: 0 <= i < |m.Anims()| ==> r.Anims()[i] == AnimationTree.Stop(m.Anims()[i], ops)
  {
    Manager(AnimationTree.Stop(m.root, ops))
  }

  /** `clear()`: drop every top-level animation; the root's own state is untouched. */
  function Clear<L>(m: Manager<L>): (r: Manager<L>)
    requires m.Valid()
    ensures r.Valid()
    ensures r.Anims() == []
    ensures r.State() == m.State()
  {
    Manager(Group(m.root.groupState, []))
  }

  /**
   * When leaf `stop` always stops, `stop()` leaves every animation the
   * manager owns STOPPED, at every depth.
   */
  lemma StopStopsEverything<L(!new)>(m: Manager<L>, ops: LeafOps<L>)
    requires m.Valid()
    requires LeafStopStops(ops)
    ensures forall i :: 0 <= i < |Stop(m, ops).Anims()| ==> AllStopped(Stop(m, ops).Anims()[i])
  {
    StopStopsSubtree(m.root, ops);
  }

  /** Clearing and then updating leaves an empty manager that is STOPPED. */
  lemma ClearThenUpdateStops<L>(m: Manager<L>, dt: real, ops: LeafOps<L>)
    requires m.Valid()
    ensures Update(Clear(m), dt, ops).State() == Stopped
    ensures Update(Clear(m), dt, ops).Anims() == []
  {
  }
}

=== FILE: animation_tree.dfy ===
/**
 * The animation tree of src/AnimationGroup.cpp: a group owns an ordered
 * sequence of child nodes and dispatches stop, update and reset to each of
 * them in order. Leaf animations (property, grid, script) keep their own
 * behaviour abstract: their payload is a type parameter and their
 * update/stop/reset are supplied as functions.
 */
module AnimationTree {

  datatype State = Stopped | Paused | Playing

  /** A leaf animation: its play state and whatever else its variant keeps. */
  datatype LeafAnim<L> = LeafAnim(state: State, body: L)

  /** The behaviour of the leaf variants, which the group code only calls. */
  datatype LeafOps<!L> = LeafOps(
    update: (LeafAnim<L>, real) -> LeafAnim<L>,
    stop: LeafAnim<L> -> LeafAnim<L>,
    reset: LeafAnim<L> -> LeafAnim<L>)

  /** A node is a group (with the base-class group behaviour) or a leaf. */
  datatype Node<L> =
    | Group(groupState: State, children: seq<Node<L>>)
    | Leaf(anim: LeafAnim<L>)
  {
    function State(): State {
      match this
      case Group(s, _) => s
      case Leaf(a) => a.state
    }
  }

  /** Leaf `stop` always ends in STOPPED. */
  ghost predicate LeafStopStops<L(!new)>(ops: LeafOps<L>) {
    forall a: LeafAnim<L> :: ops.stop(a).state == Stopped
  }

  /** Every node of the subtree, the root included, is STOPPED. */
  predicate AllStopped<L>(n: Node<L>)
    decreases n
  {
    n.State() == Stopped &&
    (n.Group? ==> forall i :: 0 <= i < |n.children| ==> AllStopped(n.children[i]))
  }

  /** Every child in the sequence is STOPPED (the loop's `allStopped` flag). */
  predicate ChildrenStopped<L>(cs: seq<Node<L>>) {
    forall i :: 0 <= i < |cs| ==> cs[i].State() == Stopped
  }

  /** Two trees have the same groups with the same number of children, in the same places. */
  predicate SameShape<L>(a: Node<L>, b: Node<L>)
    decreases a
  {
    match a
    case Leaf(_) => b.Leaf?
    case Group(_, cs) =>
      b.Group? && |b.children| == |cs| &&
      forall i :: 0 <= i < |cs| ==> SameShape(cs[i], b.children[i])
  }

  /** The leaves of a subtree, depth-first and in child order. */
  function Leaves<L>(n: Node<L>): seq<LeafAnim<L>>
    decreases n
  {
    match n
    case Leaf(a) => [a]
    case Group(_, cs) => LeavesOf(cs, n)
  }

  function LeavesOf<L>(cs: seq<Node<L>>, ghost parent: Node<L>): seq<LeafAnim<L>>
    requires forall i :: 0 <= i < |cs| ==> cs[i] < parent
    decreases parent, |cs|
  {
    if |cs| == 0 then [] else Leaves(cs[0]) + LeavesOf(cs[1..], parent)
  }

  /** Applies f to every leaf of a sequence, keeping the order. */
  function MapLeaves<L>(f: LeafAnim<L> -> LeafAnim<L>, s: seq<LeafAnim<L>>): (r: seq<LeafAnim<L>>)
    ensures |r| == |s|
    ensures forall i :: 0 <= i < |s| ==> r[i] == f(s[i])
  {
    if |s| == 0 then [] else [f(s[0])] + MapLeaves(f, s[1..])
  }

  // ---------------------------------------------------------------------
  // The three group operations.

  /** `stop`: stop every child in order, then mark the group STOPPED. */
  function Stop<L>(n: Node<L>, ops: LeafOps<L>): (r: Node<L>)
    ensures r.Group? <==> n.Group?
    ensures n.Group? ==> r.groupState == Stopped && |r.children| == |n.children|
    decreases n
  {
    match n
    case Leaf(a) => Leaf(ops.stop(a))
    case Group(_, cs) =>
      Group(Stopped, seq(|cs|, i requires 0 <= i < |cs| => Stop(cs[i], ops)))
  }

  /**
   * `update`: pass the same dt to every child in order; the group becomes
   * STOPPED when every child is STOPPED afterwards, and otherwise keeps its state.
   */
  function Update<L>(n: Node<L>, dt: real, ops: LeafOps<L>): (r: Node<L>)
    ensures r.Group? <==> n.Group?
    ensures n.Group? ==> |r.children| == |n.children|
    decreases n
  {
    match n
    case Leaf(a) => Leaf(ops.update(a, dt))
    case Group(s, cs) =>
      var cs' := seq(|cs|, i requires 0 <= i < |cs| => Update(cs[i], dt, ops));
      Group(if ChildrenStopped(cs') then Stopped else s, cs')
  }

  /** `reset`: reset every child in order; the group's own state is untouched. */
  function Reset<L>(n: Node<L>, ops: LeafOps<L>): (r: Node<L>)
    ensures r.Group? <==> n.Group?
    ensures n.Group? ==> r.groupState == n.groupState && |r.children| == |n.children|
    decreases n
  {
    match n
    case Leaf(a) => Leaf(ops.reset(a))
    case Group(_, cs) =>
      Group(n.groupState, seq(|cs|, i requires 0 <= i < |cs| => Reset(cs[i], ops)))
  }

  /**
   * The loop of AnimationGroup::update, child by child: update each child
   * and clear `allStopped` when one is left running.
   */
  method UpdateGroup<L>(n: Node<L>, dt: real, ops: LeafOps<L>) returns (r: Node<L>)
    requires n.Group?
    ensures r == Update(n, dt, ops)
    ensures r.groupState == Stopped || r.groupState == n.groupState
    ensures ChildrenStopped(r.children) ==> r.groupState == Stopped
    ensures !ChildrenStopped(r.children) ==> r.groupState == n.groupState
  {
    var cs := n.children;
    var updated: seq<Node<L>> := [];
    var allStopped := true;
    var i := 0;
    while i < |cs|
      invariant 0 <= i <= |cs|
      invariant |updated| == i
      invariant forall j :: 0 <= j < i ==> updated[j] == Update(cs[j], dt, ops)
      invariant allStopped <==> ChildrenStopped(updated)
    {
      var child := Update(cs[i], dt, ops);
      updated := updated + [child];
      if child.State() != Stopped {
        allStopped := false;
      }
      i := i + 1;
    }
    r := Group(if allStopped then Stopped else n.groupState, updated);
  }

  // ---------------------------------------------------------------------
  // Properties of the tree operations.

  /** After `stop`, every node of the subtree is STOPPED when leaf `stop` is. */
  lemma {:induction false} StopStopsSubtree<L(!new)>(n: Node<L>, ops: LeafOps<L>)
    requires LeafStopStops(ops)
    ensures AllStopped(Stop(n, ops))
    decreases n
  {
    match n
    case Leaf(a) =>
    case Group(_, cs) =>
      var r := Stop(n, ops);
      forall i | 0 <= i < |r.children|
        ensures AllStopped(r.children[i])
      {
        StopStopsSubtree(cs[i], ops);
      }
  }

  /** None of the three operations adds, drops or reorders a node. */
  lemma {:induction false} OperationsKeepShape<L>(n: Node<L>, dt: real, ops: LeafOps<L>)
    ensures SameShape(n, Stop(n, ops))
    ensures SameShape(n, Update(n, dt, ops))
    ensures SameShape(n, Reset(n, ops))
    decreases n
  {
    match n
    case Leaf(_) =>
    case Group(_, cs) =>
      forall i | 0 <= i < |cs|
        ensures SameShape(cs[i], Stop(n, ops).children[i])
        ensures SameShape(cs[i], Update(n, dt, ops).children[i])
        ensures SameShape(cs[i], Reset(n, ops).children[i])
      {
        OperationsKeepShape(cs[i], dt, ops);
      }
  }

  /**
   * `update` never puts a group into a running state: the group ends
   * STOPPED or where it was, STOPPED exactly when every child ended STOPPED,
   * and a group without children always ends STOPPED.
   */
  lemma UpdateGroupState<L>(n: Node<L>, dt: real, ops: LeafOps<L>)
    requires n.Group?
    ensures Update(n, dt, ops).groupState in {Stopped, n.groupState}
    ensures ChildrenStopped(Update(n, dt, ops).children) ==> Update(n, dt, ops).groupState == Stopped
    ensures n.groupState != Stopped ==>
              (Update(n, dt, ops).groupState == Stopped <==> ChildrenStopped(Update(n, dt, ops).children))
    ensures |n.children| == 0 ==> Update(n, dt, ops).groupState == Stopped
  {
  }

  /**
   * If every leaf ends STOPPED after `update`, so does every group above
   * them: the AND-reduction propagates all the way to the root.
   */
  lemma {:induction false} UpdateStopsWhenLeavesStop<L>(n: Node<L>, dt: real, ops: LeafOps<L>)
    requires forall k :: 0 <= k < |Leaves(Update(n, dt, ops))| ==> Leaves(Update(n, dt, ops))[k].state == Stopped
    ensures AllStopped(Update(n, dt, ops))
    decreases n
  {
    match n
    case Leaf(_) =>
      assert Leaves(Update(n, dt, ops))[0] == Update(n, dt, ops).anim;
    case Group(_, cs) =>
      var r := Update(n, dt, ops);
      forall i | 0 <= i < |cs|
        ensures AllStopped(r.children[i])
      {
        LeavesOfIndex(r.children, r, i);
        var off := |LeavesOf(r.children[..i], r)|;
        forall k | 0 <= k < |Leaves(Update(cs[i], dt, ops))|
          ensures Leaves(Update(cs[i], dt, ops))[k].state == Stopped
        {
          assert Leaves(r)[off + k] == Leaves(r.children[i])[k];
        }
        UpdateStopsWhenLeavesStop(cs[i], dt, ops);
      }
  }

  /**
   * The leaves of child i sit inside the leaves of the whole sequence,
   * right after the leaves of the children before it.
   */
  lemma LeavesOfIndex<L>(cs: seq<Node<L>>, parent: Node<L>, i: nat)
    requires forall j :: 0 <= j < |cs| ==> cs[j] < parent
    requires i < |cs|
    ensures |LeavesOf(cs[..i], parent)| + |Leaves(cs[i])| <= |LeavesOf(cs, parent)|
    ensures forall k :: 0 <= k < |Leaves(cs[i])| ==>
              LeavesOf(cs, parent)[|LeavesOf(cs[..i], parent)| + k] == Leaves(cs[i])[k]
  {
    assert cs == cs[..i] + ([cs[i]] + cs[i + 1..]);
    LeavesOfAppend(cs[..i], [cs[i]] + cs[i + 1..], parent);
    LeavesOfAppend([cs[i]], cs[i + 1..], parent);
    assert LeavesOf([cs[i]], parent) == Leaves(cs[i]) + LeavesOf([], parent);
  }

  /** Leaves of a concatenation are the concatenation of the leaves. */
  lemma {:induction false} LeavesOfAppend<L>(a: seq<Node<L>>, b: seq<Node<L>>, parent: Node<L>)
    requires forall j :: 0 <= j < |a| ==> a[j] < parent
    requires forall j :: 0 <= j < |b| ==> b[j] < parent
    ensures LeavesOf(a + b, parent) == LeavesOf(a, parent) + LeavesOf(b, parent)
    decreases |a|
  {
    if |a| > 0 {
      assert (a + b)[0] == a[0];
      assert (a + b)[1..] == a[1..] + b;
      LeavesOfAppend(a[1..], b, parent);
    } else {
      assert a + b == b;
    }
  }

  /**
   * Every leaf of the whole subtree receives the same dt: the leaves after
   * `update` are exactly the leaves before it, each updated by dt, in order.
   */
  lemma {:induction false} UpdateDispatchesToEveryLeaf<L>(n: Node<L>, dt: real, ops: LeafOps<L>)
    ensures Leaves(Update(n, dt, ops)) == MapLeaves(a => ops.update(a, dt), Leaves(n))
    decreases n
  {
    match n
    case Leaf(a) =>
    case Group(_, cs) =>
      var r := Update(n, dt, ops);
      UpdateLeavesOf(cs, r.children, n, r, dt, ops);
  }

  lemma {:induction false} UpdateLeavesOf<L>(cs: seq<Node<L>>, rs: seq<Node<L>>, p: Node<L>, q: Node<L>,
                                             dt: real, ops: LeafOps<L>)
    requires forall j :: 0 <= j < |cs| ==> cs[j] < p
    requires forall j :: 0 <= j < |rs| ==> rs[j] < q
    requires |rs| == |cs|
    requires forall j :: 0 <= j < |cs| ==> rs[j] == Update(cs[j], dt, ops)
    ensures LeavesOf(rs, q) == MapLeaves(a => ops.update(a, dt), LeavesOf(cs, p))
    decreases p, |cs|
  {
    if |cs| > 0 {
      UpdateDispatchesToEveryLeaf(cs[0], dt, ops);
      UpdateLeavesOf(cs[1..], rs[1..], p, q, dt, ops);
      MapLeavesAppend(a => ops.update(a, dt), Leaves(cs[0]), LeavesOf(cs[1..], p));
    }
  }

  /**
   * `stop` reaches every leaf of the subtree in depth-first order, and
   * `reset` does too.
   */
  lemma {:induction false} StopAndResetReachEveryLeaf<L>(n: Node<L>, ops: LeafOps<L>)
    ensures Leaves(Stop(n, ops)) == MapLeaves(ops.stop, Leaves(n))
    ensures Leaves(Reset(n, ops)) == MapLeaves(ops.reset, Leaves(n))
    decreases n
  {
    match n
    case Leaf(a) =>
    case Group(_, cs) =>
      StopResetLeavesOf(cs, Stop(n, ops).children, Reset(n, ops).children, n, Stop(n, ops), Reset(n, ops), ops);
  }

  lemma {:induction false} StopResetLeavesOf<L>(cs: seq<Node<L>>, ss: seq<Node<L>>, rs: seq<Node<L>>,
                                                p: Node<L>, ps: Node<L>, pr: Node<L>, ops: LeafOps<L>)
    requires forall j :: 0 <= j < |cs| ==> cs[j] < p
    requires forall j :: 0 <= j < |ss| ==> ss[j] < ps
    requires forall j :: 0 <= j < |rs| ==> rs[j] < pr
    requires |ss| == |cs| && |rs| == |cs|
    requires forall j :: 0 <= j < |cs| ==> ss[j] == Stop(cs[j], ops) && rs[j] == Reset(cs[j], ops)
    ensures LeavesOf(ss, ps) == MapLeaves(ops.stop, LeavesOf(cs, p))
    ensures LeavesOf(rs, pr) == MapLeaves(ops.reset, LeavesOf(cs, p))
    decreases p, |cs|
  {
    if |cs| > 0 {
      StopAndResetReachEveryLeaf(cs[0], ops);
      StopResetLeavesOf(cs[1..], ss[1..], rs[1..], p, ps, pr, ops);
      MapLeavesAppend(ops.stop, Leaves(cs[0]), LeavesOf(cs[1..], p));
      MapLeavesAppend(ops.reset, Leaves(cs[0]), LeavesOf(cs[1..], p));
    }
  }

  lemma MapLeavesAppend<L>(f: LeafAnim<L> -> LeafAnim<L>, a: seq<LeafAnim<L>>, b: seq<LeafAnim<L>>)
    ensures MapLeaves(f, a + b) == MapLeaves(f, a) + MapLeaves(f, b)
  {
    var l, r := MapLeaves(f, a + b), MapLeaves(f, a) + MapLeaves(f, b);
    assert |l| == |r|;
    forall i | 0 <= i < |l|
      ensures l[i] == r[i]
    {
      if i < |a| {
        assert (a + b)[i] == a[i];
      } else {
        assert (a + b)[i] == b[i - |a|];
      }
    }
  }
}

=== FILE: easing_curve.dfy ===
/**
 * The easing curve of src/EasingCurve.cpp: a time cursor that moves inside
 * [start, end], bounces at start, and at end clamps, rewinds or ping-pongs
 * depending on the loop mode; its value is a shape of the time, scaled and
 * shifted. Time is a mathematical real, not a 32-bit float.
 */
module EasingCurve {

  datatype EasingType = Linear | Quad | Cubic | Quart | Quint | Sine | Expo | Circ
  {
    /** The shapes that are plain powers of the time (LINEAR..QUINT). */
    predicate IsPolynomial() {
      !(Sine? || Expo? || Circ?)
    }

    /** The exponent of a polynomial shape: LINEAR is 1, ..., QUINT is 5. */
    function Degree(): nat
      requires IsPolynomial()
    {
      match this
      case Linear => 1
      case Quad => 2
      case Cubic => 3
      case Quart => 4
      case Quint => 5
    }
  }

  datatype LoopMode = Disabled | Rewind | PingPong

  /** The persisted initial direction; the cursor's live direction is `forward`. */
  datatype Direction = Forward | Backward

  datatype Curve = Curve(
    easing: EasingType,
    loopMode: LoopMode,
    direction: Direction,
    forward: bool,
    time: real,
    start: real,
    end: real,
    scale: real,
    shift: real)

  /** `time` lies in the curve's own domain. */
  predicate InRange(c: Curve) {
    c.start <= c.time <= c.end
  }

  /** x raised to the natural power k: the reference for the polynomial shapes. */
  function Pow(x: real, k: nat): real {
    if k == 0 then 1.0 else x * Pow(x, k - 1)
  }

  /**
   * The constructor: the given shape and loop mode, moving forward from time 0
   * over [0, 1] with the identity affine transform. The initial `direction` is
   * declared in a header that is not part of this model, so it is a parameter.
   */
  function NewCurve(easing: EasingType, loopMode: LoopMode, direction: Direction): (c: Curve)
    ensures c.easing == easing && c.loopMode == loopMode && c.direction == direction
    ensures c.forward && c.time == 0.0 && c.start == 0.0 && c.end == 1.0
    ensures c.scale == 1.0 && c.shift == 0.0
    ensures InRange(c)
  {
    Curve(easing, loopMode, direction, true, 0.0, 0.0, 1.0, 1.0, 0.0)
  }

  /** Stores t, clamped first against start and then against end. */
  function SetTime(c: Curve, t: real): (r: Curve)
    ensures r == c.(time := r.time)
    ensures c.start <= c.end ==> InRange(r)
    ensures c.start <= t <= c.end ==> r.time == t
    ensures t < c.start ==> r.time == c.start
    ensures c.start <= t && c.end < t ==> r.time == c.end
  {
    if t < c.start then c.(time := c.start)
    else if t > c.end then c.(time := c.end)
    else c.(time := t)
  }

  /** Rewinds the cursor to start; nothing else moves. */
  function Reset(c: Curve): (r: Curve)
    ensures r.time == c.start
    ensures r == c.(time := r.time)
    ensures c.start <= c.end ==> InRange(r)
  {
    c.(time := c.start)
  }

  /**
   * The curve's value at its current time, for the polynomial shapes:
   * the product of `time` with itself k times, scaled and shifted.
   */
  function Value(c: Curve): (r: real)
    requires c.easing.IsPolynomial()
    ensures r == Pow(c.time, c.easing.Degree()) * c.scale + c.shift
  {
    var t := c.time;
    assert Pow(t, 1) == t;
    assert Pow(t, 2) == t * t;
    assert Pow(t, 3) == t * t * t;
    assert Pow(t, 4) == t * t * t * t;
    assert Pow(t, 5) == t * t * t * t * t;
    match c.easing
    case Linear => t * c.scale + c.shift
    case Quad => t * t * c.scale + c.shift
    case Cubic => t * t * t * c.scale + c.shift
    case Quart => t * t * t * t * c.scale + c.shift
    case Quint => t * t * t * t * t * c.scale + c.shift
  }

  /** The time `next` moves to before any reflection or loop handling. */
  function Moved(c: Curve, dt: real): real {
    if c.forward then c.time + dt else c.time - dt
  }

  /**
   * The time state machine of `next`: move by dt in the current direction,
   * reflect at start (whatever the loop mode), and at end clamp (DISABLED),
   * subtract end (REWIND) or reflect and turn back (PING_PONG).
   */
  function Advance(c: Curve, dt: real): (r: Curve)
    ensures r.easing == c.easing && r.loopMode == c.loopMode && r.direction == c.direction
    ensures r.start == c.start && r.end == c.end && r.scale == c.scale && r.shift == c.shift
  {
    var t := Moved(c, dt);
    if t < c.start then c.(time := 2.0 * c.start - t, forward := true)
    else if t > c.end then
      match c.loopMode
      case Disabled => c.(time := c.end)
      case Rewind => c.(time := t - c.end)
      case PingPong => c.(time := 2.0 * c.end - t, forward := false)
    else c.(time := t)
  }

  /** `next`: advance the time, then report the value at the new time. */
  function Next(c: Curve, dt: real): (r: (Curve, real))
    requires c.easing.IsPolynomial()
    ensures r.0 == Advance(c, dt)
    ensures r.1 == Pow(r.0.time, c.easing.Degree()) * c.scale + c.shift
  {
    var c' := Advance(c, dt);
    (c', Value(c'))
  }

  /** Inside the domain, `next` moves only the time, by +dt or -dt. */
  lemma AdvanceInside(c: Curve, dt: real)
    requires c.start <= Moved(c, dt) <= c.end
    ensures Advance(c, dt) == c.(time := Moved(c, dt))
    ensures Advance(c, dt).forward == c.forward
    ensures c.forward ==> Advance(c, dt).time == c.time + dt
    ensures !c.forward ==> Advance(c, dt).time == c.time - dt
  {
  }

  /** Below start the time is mirrored about start and the cursor turns forward, in every loop mode. */
  lemma AdvanceBelowStart(c: Curve, dt: real)
    requires Moved(c, dt) < c.start
    ensures Advance(c, dt) == c.(time := 2.0 * c.start - Moved(c, dt), forward := true)
    ensures Advance(c, dt).time > c.start
  {
  }

  /** Above end: DISABLED freezes at end, REWIND subtracts end, PING_PONG mirrors about end and turns back. */
  lemma AdvanceAboveEnd(c: Curve, dt: real)
    requires c.start <= Moved(c, dt) && c.end < Moved(c, dt)
    ensures c.loopMode == Disabled ==> Advance(c, dt) == c.(time := c.end)
    ensures c.loopMode == Rewind ==> Advance(c, dt) == c.(time := Moved(c, dt) - c.end)
    ensures c.loopMode == PingPong ==>
              Advance(c, dt) == c.(time := 2.0 * c.end - Moved(c, dt), forward := false)
  {
  }

  /**
   * A step no longer than the domain keeps the time inside [start, end]
   * under DISABLED and PING_PONG: a single reflection suffices.
   */
  lemma AdvanceStaysInRange(c: Curve, dt: real)
    requires InRange(c)
    requires c.loopMode != Rewind
    requires 0.0 <= dt <= c.end - c.start
    ensures InRange(Advance(c, dt))
  {
  }

  /** A step longer than the domain can leave it even under PING_PONG: one reflection is not enough. */
  lemma LongStepEscapes()
    ensures var c := NewCurve(Linear, PingPong, Forward);
            !InRange(Advance(c, 3.0)) && Advance(c, 3.0).time == -1.0
  {
  }

  /** Powers of a time in [0, 1] stay in [0, 1]. */
  lemma {:induction false} PowUnitInterval(x: real, k: nat)
    requires 0.0 <= x <= 1.0
    ensures 0.0 <= Pow(x, k) <= 1.0
  {
    if k > 0 {
      PowUnitInterval(x, k - 1);
      ScaleByUnit(x, Pow(x, k - 1));
    }
  }

  /** Scaling a non-negative number by a factor in [0, 1] keeps it in [0, itself]. */
  lemma ScaleByUnit(x: real, p: real)
    requires 0.0 <= x <= 1.0 && 0.0 <= p
    ensures 0.0 <= x * p <= p
  {
    assert p - x * p == (1.0 - x) * p;
  }

  /** Powers are monotone on non-negative times. */
  lemma {:induction false} PowMonotone(x: real, y: real, k: nat)
    requires 0.0 <= x <= y
    ensures Pow(x, k) <= Pow(y, k)
  {
    if k > 0 {
      PowMonotone(x, y, k - 1);
      PowNonNegative(x, k - 1);
      assert x * Pow(x, k - 1) <= y * Pow(x, k - 1);
      assert y * Pow(x, k - 1) <= y * Pow(y, k - 1);
    }
  }

  lemma {:induction false} PowNonNegative(x: real, k: nat)
    requires 0.0 <= x
    ensures 0.0 <= Pow(x, k)
  {
    if k > 0 {
      PowNonNegative(x, k - 1);
    }
  }

  /**
   * With the identity transform, a polynomial curve whose time is in [0, 1]
   * reports a value in [0, 1] that grows with the time.
   */
  lemma ValueUnitBounds(c: Curve, d: Curve)
    requires c.easing.IsPolynomial() && c.scale == 1.0 && c.shift == 0.0
    requires 0.0 <= c.time <= 1.0
    requires d == c.(time := d.time) && c.time <= d.time <= 1.0
    ensures 0.0 <= Value(c) <= 1.0
    ensures Value(c) <= Value(d)
  {
    PowUnitInterval(c.time, c.easing.Degree());
    PowMonotone(c.time, d.time, c.easing.Degree());
  }

  /**
   * On the default domain [0, 1] with DISABLED or PING_PONG, any run of
   * steps each no longer than the domain keeps a polynomial curve with the
   * identity transform inside [0, 1].
   */
  lemma {:induction false} RunStaysBounded(c: Curve, dts: seq<real>)
    requires c.easing.IsPolynomial() && c.scale == 1.0 && c.shift == 0.0
    requires c.start == 0.0 && c.end == 1.0 && InRange(c)
    requires c.loopMode != Rewind
    requires forall i :: 0 <= i < |dts| ==> 0.0 <= dts[i] <= 1.0
    ensures InRange(Run(c, dts))
    ensures 0.0 <= Value(Run(c, dts)) <= 1.0
    decreases |dts|
  {
    if |dts| == 0 {
      PowUnitInterval(c.time, c.easing.Degree());
    } else {
      AdvanceStaysInRange(c, dts[0]);
      RunStaysBounded(Advance(c, dts[0]), dts[1..]);
    }
  }

  /** Successive calls to `next` with the given steps. */
  function Run(c: Curve, dts: seq<real>): (r: Curve)
    ensures r.easing == c.easing && r.loopMode == c.loopMode && r.direction == c.direction
    ensures r.start == c.start && r.end == c.end && r.scale == c.scale && r.shift == c.shift
    decreases |dts|
  {
    if |dts| == 0 then c else Run(Advance(c, dts[0]), dts[1..])
  }

  // ---------------------------------------------------------------------
  // REWIND as written versus as evidently intended.

  /**
   * As written, REWIND lands at `t - end`, which is below start whenever
   * start is positive: on [0.5, 1] at time 1, a step of 0.2 lands at 0.2.
   */
  lemma RewindLeavesDomain()
    ensures var c := Curve(Linear, Rewind, Forward, true, 1.0, 0.5, 1.0, 1.0, 0.0);
            InRange(c) && 0.2 <= c.end - c.start &&
            Advance(c, 0.2).time == 0.2 && !InRange(Advance(c, 0.2))
  {
  }

  /**
   * The evidently intended REWIND: restart from start carrying the overflow,
   * `start + (t - end)`; everything else as in Advance.
   */
  function AdvanceRewindFromStart(c: Curve, dt: real): (r: Curve)
    ensures c.loopMode != Rewind ==> r == Advance(c, dt)
    ensures c.start == 0.0 ==> r == Advance(c, dt)
    ensures InRange(c) && 0.0 <= dt <= c.end - c.start ==> InRange(r)
    ensures c.loopMode == Rewind && c.start <= Moved(c, dt) && Moved(c, dt) > c.end ==>
              r.time - r.start == Moved(c, dt) - c.end
  {
    var t := Moved(c, dt);
    if c.loopMode == Rewind && c.start <= t && t > c.end then
      c.(time := c.start + (t - c.end))
    else
      Advance(c, dt)
  }
}

=== FILE: enum_codecs.dfy ===
/**
 * The save-format spelling of each enum in src/Serializers.cpp. Every
 * encoder writes one lower-case string per value; every decoder maps those
 * strings back and reads any other string as a fixed default, so an
 * unknown value never aborts a load.
 */
module EnumCodecs {
  import opened EasingCurve

  /** Sprite blending presets. */
  datatype BlendingPreset = BlendDisabled | Alpha | PremultipliedAlpha | Additive | Multiply

  /** The animation node types the save format knows. */
  datatype AnimType = ParallelGroup | SequentialGroup | PropertyAnimation | GridAnimation

  // ---------------------------------------------------------------------
  // Blending preset

  function EncodeBlending(p: BlendingPreset): (s: string)
    ensures DecodeBlending(s) == p
  {
    match p
    case BlendDisabled => "disabled"
    case Alpha => "alpha"
    case PremultipliedAlpha => "premultiplied_alpha"
    case Additive => "additive"
    case Multiply => "multiply"
  }

  function DecodeBlending(s: string): (p: BlendingPreset)
  {
    if s == "disabled" then BlendDisabled
    else if s == "alpha" then Alpha
    else if s == "premultiplied_alpha" then PremultipliedAlpha
    else if s == "additive" then Additive
    else if s == "multiply" then Multiply
    else BlendDisabled
  }

  // ---------------------------------------------------------------------
  // Animation type

  function EncodeAnimType(t: AnimType): (s: string)
    ensures DecodeAnimType(s) == t
  {
    match t
    case ParallelGroup => "parallel_group"
    case SequentialGroup => "sequential_group"
    case PropertyAnimation => "property_animation"
    case GridAnimation => "grid_animation"
  }

  function DecodeAnimType(s: string): (t: AnimType)
  {
    if s == "parallel_group" then ParallelGroup
    else if s == "sequential_group" then SequentialGroup
    else if s == "property_animation" then PropertyAnimation
    else if s == "grid_animation" then GridAnimation
    else ParallelGroup
  }

  // ---------------------------------------------------------------------
  // Easing type

  function EncodeEasing(t: EasingType): (s: string)
    ensures DecodeEasing(s) == t
  {
    match t
    case Linear => "linear"
    case Quad => "quad"
    case Cubic => "cubic"
    case Quart => "quart"
    case Quint => "quint"
    case Sine => "sine"
    case Expo => "expo"
    case Circ => "circ"
  }

  function DecodeEasing(s: string): (t: EasingType)
  {
    if s == "linear" then Linear
    else if s == "quad" then Quad
    else if s == "cubic" then Cubic
    else if s == "quart" then Quart
    else if s == "quint" then Quint
    else if s == "sine" then Sine
    else if s == "expo" then Expo
    else if s == "circ" then Circ
    else Linear
  }

  // ---------------------------------------------------------------------
  // Direction

  function EncodeDirection(d: Direction): (s: string)
    ensures DecodeDirection(s) == d
  {
    match d
    case Forward => "forward"
    case Backward => "backward"
  }

  function DecodeDirection(s: string): (d: Direction)
  {
    if s == "forward" then Forward
    else if s == "backward" then Backward
    else Forward
  }

  // ---------------------------------------------------------------------
  // Loop mode

  function EncodeLoopMode(m: LoopMode): (s: string)
    ensures DecodeLoopMode(s) == m
  {
    match m
    case Disabled => "disabled"
    case Rewind => "rewind"
    case PingPong => "ping_pong"
  }

  function DecodeLoopMode(s: string): (m: LoopMode)
  {
    if s == "disabled" then Disabled
    else if s == "rewind" then Rewind
    else if s == "ping_pong" then PingPong
    else Disabled
  }

  // ---------------------------------------------------------------------
  // Properties

  /**
   * Each encoder is injective: distinct values never share a spelling, so
   * a saved file never confuses two values.
   */
  lemma EncodersInjective()
    ensures forall p, q :: EncodeBlending(p) == EncodeBlending(q) ==> p == q
    ensures forall t, u :: EncodeAnimType(t) == EncodeAnimType(u) ==> t == u
    ensures forall t, u :: EncodeEasing(t) == EncodeEasing(u) ==> t == u
    ensures forall d, e :: EncodeDirection(d) == EncodeDirection(e) ==> d == e
    ensures forall m, n :: EncodeLoopMode(m) == EncodeLoopMode(n) ==> m == n
  {
    forall p, q | EncodeBlending(p) == EncodeBlending(q) ensures p == q {
      assert DecodeBlending(EncodeBlending(p)) == p;
    }
    forall t, u | EncodeAnimType(t) == EncodeAnimType(u) ensures t == u {
      assert DecodeAnimType(EncodeAnimType(t)) == t;
    }
    forall t, u | EncodeEasing(t) == EncodeEasing(u) ensures t == u {
      assert DecodeEasing(EncodeEasing(t)) == t;
    }
    forall d, e | EncodeDirection(d) == EncodeDirection(e) ensures d == e {
      assert DecodeDirection(EncodeDirection(d)) == d;
    }
    forall m, n | EncodeLoopMode(m) == EncodeLoopMode(n) ensures m == n {
      assert DecodeLoopMode(EncodeLoopMode(m)) == m;
    }
  }

  /**
   * A string no encoder writes decodes to the fixed default of its
   * enum: DISABLED, PARALLEL_GROUP, LINEAR, FORWARD and DISABLED.
   */
  lemma UnknownStringsFallBack(s: string)
    ensures (forall p :: EncodeBlending(p) != s) ==> DecodeBlending(s) == BlendDisabled
    ensures (forall t :: EncodeAnimType(t) != s) ==> DecodeAnimType(s) == ParallelGroup
    ensures (forall t :: EncodeEasing(t) != s) ==> DecodeEasing(s) == Linear
    ensures (forall d :: EncodeDirection(d) != s) ==> DecodeDirection(s) == Forward
    ensures (forall m :: EncodeLoopMode(m) != s) ==> DecodeLoopMode(s) == Disabled
  {
    DecodeOnlyFromSpelling(s);
    if DecodeBlending(s) != BlendDisabled { assert EncodeBlending(DecodeBlending(s)) == s; }
    if DecodeAnimType(s) != ParallelGroup { assert EncodeAnimType(DecodeAnimType(s)) == s; }
    if DecodeEasing(s) != Linear { assert EncodeEasing(DecodeEasing(s)) == s; }
    if DecodeDirection(s) != Forward { assert EncodeDirection(DecodeDirection(s)) == s; }
    if DecodeLoopMode(s) != Disabled { assert EncodeLoopMode(DecodeLoopMode(s)) == s; }
  }

  /**
   * A decoder reaches a value other than its default only from that
   * value's own spelling.
   */
  lemma DecodeOnlyFromSpelling(s: string)
    ensures DecodeEasing(s) != Linear ==> EncodeEasing(DecodeEasing(s)) == s
    ensures DecodeLoopMode(s) != Disabled ==> EncodeLoopMode(DecodeLoopMode(s)) == s
    ensures DecodeDirection(s) != Forward ==> EncodeDirection(DecodeDirection(s)) == s
    ensures DecodeAnimType(s) != ParallelGroup ==> EncodeAnimType(DecodeAnimType(s)) == s
    ensures DecodeBlending(s) != BlendDisabled ==> EncodeBlending(DecodeBlending(s)) == s
  {
  }
}

=== FILE: optional.dfy ===
/** Failure-carrying wrappers shared by the save-format model. */
module Optional {

  /** A value that may be absent: a null pointer, a missing table field. */
  datatype Option<+T> = None | Some(value: T)

  /** Why a save-record load could not complete. */
  datatype LoadError =
    | MissingField(key: string)   // the field is absent or holds a value of the wrong kind
    | IndexOutOfRange(index: nat) // a positional entry addresses a slot that does not exist

  /** The outcome of a load: the restored value or the reason it failed. */
  datatype Result<+T> = Success(value: T) | Failure(error: LoadError)
  {
    predicate IsFailure() {
      Failure?
    }

    function PropagateFailure<U>(): Result<U>
      requires Failure?
    {
      Failure(error)
    }

    function Extract(): T
      requires Success?
    {
      value
    }
  }
}

=== FILE: render_progress.dfy ===
/**
 * The bookkeeping of src/gui/RenderGuiWindow.cpp that is not drawing: the
 * canvas resize levels, the frame-save counter and sprite-sheet cursor of
 * a render in progress, and the integer sizing of frames and sheets.
 */
module RenderProgress {

  // ---------------------------------------------------------------------
  // Resize levels.

  datatype ResizeLevel = X1_8 | X1_4 | X1_2 | X1 | X2 | X4 | X8

  /** The position of a level in increasing order of magnification. */
  function Rank(l: ResizeLevel): nat {
    match l
    case X1_8 => 0
    case X1_4 => 1
    case X1_2 => 2
    case X1 => 3
    case X2 => 4
    case X4 => 5
    case X8 => 6
  }

  /** The magnification of each level: powers of two from 1/8 to 8. */
  function ResizeAmount(l: ResizeLevel): (a: real)
    ensures 0.125 <= a <= 8.0
  {
    match l
    case X1_8 => 0.125
    case X1_4 => 0.25
    case X1_2 => 0.5
    case X1 => 1.0
    case X2 => 2.0
    case X4 => 4.0
    case X8 => 8.0
  }

  /** Higher levels magnify strictly more. */
  lemma ResizeAmountIncreasing(l: ResizeLevel, m: ResizeLevel)
    ensures Rank(m) < Rank(l) <==> ResizeAmount(m) < ResizeAmount(l)
  {
  }

  /**
   * Picks the level for an amount by a chain of upper thresholds: it rounds
   * up to the nearest level, so the chosen level's amount is at least the
   * requested one (up to the largest level) and every smaller level's
   * amount falls short of it.
   */
  function SetResize(amount: real): (l: ResizeLevel)
    ensures amount <= 8.0 ==> amount <= ResizeAmount(l)
    ensures forall m :: Rank(m) < Rank(l) ==> ResizeAmount(m) < amount
  {
    if amount <= 0.125 then X1_8
    else if amount <= 0.25 then X1_4
    else if amount <= 0.5 then X1_2
    else if amount <= 1.0 then X1
    else if amount <= 2.0 then X2
    else if amount <= 4.0 then X4
    else X8
  }

  /** Every level's own amount selects that level again. */
  lemma ResizeRoundTrip(l: ResizeLevel)
    ensures SetResize(ResizeAmount(l)) == l
  {
  }

  /**
   * SetResize is monotone: larger amounts never choose smaller levels. The
   * smallest amounts choose X1_8 and anything above 4 chooses X8.
   */
  lemma SetResizeMonotone(a: real, b: real)
    ensures a <= b ==> Rank(SetResize(a)) <= Rank(SetResize(b))
    ensures a <= 0.125 ==> SetResize(a) == X1_8
    ensures a > 4.0 ==> SetResize(a) == X8
  {
  }

  // ---------------------------------------------------------------------
  // Render progress.

  datatype Point = Point(x: int, y: int)

  datatype Size = Size(width: int, height: int)

  /**
   * The render flags, the frame counter, the resize amount the render was
   * started with and the sprite-sheet destination.
   */
  datatype RenderStatus = RenderStatus(
    saveFrames: bool,
    saveSpritesheet: bool,
    numSavedFrames: nat,
    numFrames: int,
    canvasResize: real,
    sheetDestPos: Point)

  predicate Rendering(s: RenderStatus) {
    s.saveFrames || s.saveSpritesheet
  }

  /** Frames are read from the resized canvas unless the resize amount is exactly 1. */
  function SourceCanvas(canvasResize: real, canvas: Size, resized: Size): (r: Size)
    ensures canvasResize == 1.0 ==> r == canvas
    ensures canvasResize != 1.0 ==> r == resized
  {
    if canvasResize != 1.0 then resized else canvas
  }

  /**
   * Moves the sheet destination one frame to the right, and to the start of
   * the next row when a further frame would not fit in the sheet's width.
   */
  function CursorStep(p: Point, frame: Size, sheetWidth: int): (r: Point)
    ensures r.x == 0 || r.x == p.x + frame.width
    ensures r.y == p.y || r.y == p.y + frame.height
    ensures r.x + frame.width <= sheetWidth || r.x == 0
    ensures 0 <= frame.width <= sheetWidth ==> r.x + frame.width <= sheetWidth
    ensures r.x == 0 <==> p.x + 2 * frame.width > sheetWidth || p.x + frame.width == 0
    ensures p.x + 2 * frame.width > sheetWidth ==> r == Point(0, p.y + frame.height)
    ensures p.x + 2 * frame.width <= sheetWidth ==> r == Point(p.x + frame.width, p.y)
  {
    var x := p.x + frame.width;
    if x + frame.width > sheetWidth then Point(0, p.y + frame.height) else Point(x, p.y)
  }

  /**
   * A saved frame: count it, move the sheet cursor by the size of the
   * canvas the frame was read from when a sprite sheet is being written,
   * and end the render when the count reaches numFrames. The caller must
   * be in the middle of a render.
   */
  function SignalFrameSaved(s: RenderStatus, canvas: Size, resized: Size, sheetWidth: int): (r: RenderStatus)
    requires Rendering(s)
    ensures r.numFrames == s.numFrames && r.canvasResize == s.canvasResize
    ensures s.numSavedFrames + 1 == s.numFrames ==>
              !Rendering(r) && r.numSavedFrames == 0
    ensures s.numSavedFrames + 1 != s.numFrames ==>
              r.saveFrames == s.saveFrames && r.saveSpritesheet == s.saveSpritesheet &&
              r.numSavedFrames == s.numSavedFrames + 1
    ensures s.saveFrames ==> r.sheetDestPos == s.sheetDestPos
    ensures !s.saveFrames ==>
              r.sheetDestPos == CursorStep(s.sheetDestPos, SourceCanvas(s.canvasResize, canvas, resized), sheetWidth)
  {
    var count := s.numSavedFrames + 1;
    var pos := if s.saveFrames then s.sheetDestPos
               else CursorStep(s.sheetDestPos, SourceCanvas(s.canvasResize, canvas, resized), sheetWidth);
    if count == s.numFrames then
      RenderStatus(false, false, 0, s.numFrames, s.canvasResize, pos)
    else
      s.(numSavedFrames := count, sheetDestPos := pos)
  }

  /** Cancelling an active render clears both flags and the counter; otherwise nothing happens. */
  function CancelRender(s: RenderStatus): (r: RenderStatus)
    ensures !Rendering(r) && r.numFrames == s.numFrames && r.sheetDestPos == s.sheetDestPos
    ensures Rendering(s) ==> r.numSavedFrames == 0
    ensures !Rendering(s) ==> r == s
  {
    if Rendering(s) then s.(saveFrames := false, saveSpritesheet := false, numSavedFrames := 0)
    else s
  }

  /** The "Save frames" button; an empty filename prefix only reports an error. */
  function StartFrames(s: RenderStatus, filenameEmpty: bool): (r: RenderStatus)
    requires !Rendering(s)
    ensures filenameEmpty ==> r == s
    ensures !filenameEmpty ==> r.saveFrames && !r.saveSpritesheet && r == s.(saveFrames := true)
  {
    if filenameEmpty then s else s.(saveFrames := true)
  }

  /** The "Save spritesheet" button: the sheet cursor starts at the origin. */
  function StartSpritesheet(s: RenderStatus, filenameEmpty: bool): (r: RenderStatus)
    requires !Rendering(s)
    ensures filenameEmpty ==> r == s
    ensures !filenameEmpty ==> r.saveSpritesheet && !r.saveFrames && r.sheetDestPos == Point(0, 0)
    ensures !filenameEmpty ==> r.numSavedFrames == s.numSavedFrames && r.numFrames == s.numFrames
  {
    if filenameEmpty then s else s.(saveSpritesheet := true, sheetDestPos := Point(0, 0))
  }

  /** With no render active, the saved-frame counter is 0. */
  predicate IdleAtZero(s: RenderStatus) {
    !Rendering(s) ==> s.numSavedFrames == 0
  }

  /**
   * Every transition of the render status keeps the counter at 0 while no
   * render is active, so cancelling always leaves the counter at 0.
   */
  lemma IdleAtZeroPreserved(s: RenderStatus, canvas: Size, resized: Size, sheetWidth: int, filenameEmpty: bool)
    requires IdleAtZero(s)
    ensures Rendering(s) ==> IdleAtZero(SignalFrameSaved(s, canvas, resized, sheetWidth))
    ensures IdleAtZero(CancelRender(s)) && CancelRender(s).numSavedFrames == 0
    ensures !Rendering(s) ==> IdleAtZero(StartFrames(s, filenameEmpty))
    ensures !Rendering(s) ==> IdleAtZero(StartSpritesheet(s, filenameEmpty))
    ensures !Rendering(s) && !filenameEmpty ==> StartFrames(s, filenameEmpty).numSavedFrames == 0
    ensures !Rendering(s) && !filenameEmpty ==> StartSpritesheet(s, filenameEmpty).numSavedFrames == 0
  {
  }

  /**
   * The sheet cursor after k frames, starting from the origin. When a frame
   * fits the sheet's width, every frame's destination lies within it.
   */
  function CursorAfter(k: nat, frame: Size, sheetWidth: int): (p: Point)
    ensures 0 <= frame.width <= sheetWidth ==> 0 <= p.x && p.x + frame.width <= sheetWidth
  {
    if k == 0 then Point(0, 0) else CursorStep(CursorAfter(k - 1, frame, sheetWidth), frame, sheetWidth)
  }

  /** Scaling both sides of an inequality by a non-negative factor. */
  lemma MulMono(a: int, b: int, w: int)
    requires a <= b && 0 <= w
    ensures a * w <= b * w
  {
    assert b * w - a * w == (b - a) * w;
  }

  /** The number of frames that fit side by side in the sheet's width. */
  function Columns(w: int, sheetWidth: int): (cols: int)
    requires 0 < w <= sheetWidth
    ensures cols >= 1
    ensures cols * w <= sheetWidth < (cols + 1) * w
  {
    var cols := sheetWidth / w;
    assert sheetWidth == cols * w + sheetWidth % w;
    cols
  }

  /** Row and column of frame k in a row-major grid of cols columns. */
  function Slot(k: nat, cols: int): (rc: (nat, nat))
    requires cols >= 1
    ensures rc.1 < cols
    ensures k == rc.0 * cols + rc.1
  {
    if k == 0 then (0, 0)
    else
      var (row, col) := Slot(k - 1, cols);
      if col + 1 < cols then (row, col + 1)
      else
        assert (row + 1) * cols == row * cols + cols;
        (row + 1, 0)
  }

  /** Top-left corner of the grid cell at (row, column) rc. */
  function SlotOrigin(rc: (nat, nat), frame: Size): Point {
    Point(rc.1 * frame.width, rc.0 * frame.height)
  }

  /**
   * Frames are laid out row by row in a grid of sheetWidth / width
   * columns: frame k lands at the column and row of its row-major slot.
   */
  lemma {:induction false} CursorLayout(k: nat, frame: Size, sheetWidth: int)
    requires 0 < frame.width <= sheetWidth
    ensures CursorAfter(k, frame, sheetWidth) == SlotOrigin(Slot(k, Columns(frame.width, sheetWidth)), frame)
  {
    var w := frame.width;
    var cols := Columns(w, sheetWidth);
    if k > 0 {
      CursorLayout(k - 1, frame, sheetWidth);
      var (row, col) := Slot(k - 1, cols);
      var p := CursorAfter(k - 1, frame, sheetWidth);
      assert p == Point(col * w, row * frame.height);
      assert p.x + 2 * w == (col + 2) * w;
      if col + 1 < cols {
        MulMono(col + 2, cols, w);
        assert CursorStep(p, frame, sheetWidth) == Point((col + 1) * w, row * frame.height);
      } else {
        assert CursorStep(p, frame, sheetWidth) == Point(0, row * frame.height + frame.height);
        assert (row + 1) * frame.height == row * frame.height + frame.height;
      }
    }
  }

  /** Signals after k frames of a render that started from the origin. */
  function SignalTimes(s: RenderStatus, k: nat, canvas: Size, resized: Size, sheetWidth: int): (r: RenderStatus)
    requires Rendering(s) && s.numSavedFrames + k <= s.numFrames
    decreases k
  {
    if k == 0 then s
    else
      var s' := SignalFrameSaved(s, canvas, resized, sheetWidth);
      if k == 1 then s' else SignalTimes(s', k - 1, canvas, resized, sheetWidth)
  }

  /**
   * A render with numFrames ahead of its counter ends after exactly that
   * many signals, and not before: both flags drop and the counter is back
   * at zero.
   */
  lemma {:induction false} RenderFinishes(s: RenderStatus, k: nat, canvas: Size, resized: Size, sheetWidth: int)
    requires Rendering(s) && s.numSavedFrames + k <= s.numFrames
    ensures k < s.numFrames - s.numSavedFrames ==>
              Rendering(SignalTimes(s, k, canvas, resized, sheetWidth)) &&
              SignalTimes(s, k, canvas, resized, sheetWidth).numSavedFrames == s.numSavedFrames + k
    ensures k == s.numFrames - s.numSavedFrames && k > 0 ==>
              !Rendering(SignalTimes(s, k, canvas, resized, sheetWidth)) &&
              SignalTimes(s, k, canvas, resized, sheetWidth).numSavedFrames == 0
    decreases k
  {
    if k > 1 {
      RenderFinishes(SignalFrameSaved(s, canvas, resized, sheetWidth), k - 1, canvas, resized, sheetWidth);
    }
  }

  // ---------------------------------------------------------------------
  // Frame and sheet sizing.

  /** A dimension limited to the largest texture size. */
  function Cap(v: int, maxTextureSize: int): (r: int)
    ensures r <= v && r <= maxTextureSize
    ensures r == v || r == maxTextureSize
  {
    if v > maxTextureSize then maxTextureSize else v
  }

  /** A float-to-int conversion: truncation toward zero. */
  function Trunc(x: real): (r: int)
    ensures 0.0 <= x ==> r as real <= x < r as real + 1.0
    ensures x < 0.0 ==> r as real - 1.0 < x <= r as real
  {
    if x >= 0.0 then x.Floor else -((-x).Floor)
  }

  /** The frame size: the canvas scaled by the resize amount, each side capped. */
  function FrameSize(canvas: Size, canvasResize: real, maxTextureSize: int): (r: Size)
    ensures r.width == Cap(Trunc(canvas.width as real * canvasResize), maxTextureSize)
    ensures r.height == Cap(Trunc(canvas.height as real * canvasResize), maxTextureSize)
    ensures r.width <= maxTextureSize && r.height <= maxTextureSize
  {
    Size(Cap(Trunc(canvas.width as real * canvasResize), maxTextureSize),
         Cap(Trunc(canvas.height as real * canvasResize), maxTextureSize))
  }

  /** The sheet size: the grid of frames, each side capped. */
  function SheetSize(sideX: int, sideY: int, frame: Size, maxTextureSize: int): (r: Size)
    ensures r.width <= maxTextureSize && r.height <= maxTextureSize
    ensures sideX * frame.width <= maxTextureSize ==> r.width == sideX * frame.width
    ensures sideY * frame.height <= maxTextureSize ==> r.height == sideY * frame.height
  {
    Size(Cap(sideX * frame.width, maxTextureSize), Cap(sideY * frame.height, maxTextureSize))
  }

  /** The frame count after the duration slider: duration times fps, never below one. */
  function RecomputeNumFrames(duration: real, fps: int): (n: int)
    ensures n >= 1
    ensures Trunc(duration * fps as real) >= 1 ==> n == Trunc(duration * fps as real)
    ensures Trunc(duration * fps as real) < 1 ==> n == 1
  {
    var n := Trunc(duration * fps as real);
    if n < 1 then 1 else n
  }

  /** s is the smallest natural whose square reaches n. */
  predicate IsCeilSqrt(n: nat, s: nat) {
    n <= s * s && (s == 0 || (s - 1) * (s - 1) < n)
  }

  /** The integer ceiling of the square root of n. */
  method CeilSqrt(n: nat) returns (s: nat)
    ensures IsCeilSqrt(n, s)
  {
    s := 0;
    while s * s < n
      invariant s == 0 || (s - 1) * (s - 1) < n
      invariant s <= n
      decreases n - s
    {
      s := s + 1;
    }
  }

  /**
   * The number of sheet rows as written: one fewer than the columns only
   * when sideX*(sideX-1) exceeds n. The rows hold every frame, and only the
   * last row can be left empty.
   */
  function SideYAsWritten(n: nat, sideX: nat): (sideY: int)
    requires IsCeilSqrt(n, sideX)
    ensures sideY == sideX || sideY == sideX - 1
    ensures sideX * sideY >= n
    ensures n >= 1 ==> sideX * (sideY - 1) <= n
  {
    if sideX * (sideX - 1) > n then
      assert sideX * (sideX - 2) == (sideX - 1) * (sideX - 1) - 1;
      sideX - 1
    else sideX
  }

  /**
   * With the strict test, a frame count equal to sideX*(sideX-1) gets a
   * whole empty row: six frames make a 3 x 3 sheet though 3 x 2 holds them.
   */
  lemma SideYAsWrittenSpareRow()
    ensures IsCeilSqrt(6, 3) && SideYAsWritten(6, 3) == 3 && 3 * (SideYAsWritten(6, 3) - 1) >= 6
  {
  }

  /** The number of sheet rows with the test that also accepts an exact fit. */
  function SideY(n: nat, sideX: nat): (sideY: int)
    requires IsCeilSqrt(n, sideX)
    ensures sideY == sideX || sideY == sideX - 1
    ensures sideX * sideY >= n
    ensures n >= 1 ==> sideX * (sideY - 1) < n
  {
    if sideX * (sideX - 1) >= n then sideX - 1 else sideX
  }

  /**
   * The sheet grid `create()` computes: sideX columns, the least whose
   * square holds every frame, and sideX or sideX - 1 rows by the test as
   * written. Every frame fits; only the last row can be empty.
   */
  method SheetGrid(n: nat) returns (sideX: nat, sideY: int)
    ensures n <= sideX * sideX && (n >= 1 ==> (sideX - 1) * (sideX - 1) < n)
    ensures sideY == sideX || sideY == sideX - 1
    ensures sideX * sideY >= n
    ensures n >= 1 ==> sideX * (sideY - 1) <= n
  {
    sideX := CeilSqrt(n);
    sideY := SideYAsWritten(n, sideX);
  }

  /**
   * On an uncapped sheet of sideX frames by SideY rows, the cursor puts
   * every one of the n frames inside the sheet: column below sideX, row
   * below sideY. The sheet as written has at least as many rows, so the
   * frames fit it too.
   */
  lemma SheetHoldsEveryFrame(n: nat, sideX: nat, k: nat, frame: Size)
    requires IsCeilSqrt(n, sideX)
    requires 0 < frame.width && k < n
    ensures sideX >= 1 && frame.width <= sideX * frame.width
    ensures Columns(frame.width, sideX * frame.width) == sideX
    ensures Slot(k, sideX).0 < SideY(n, sideX) && Slot(k, sideX).1 < sideX
    ensures SideY(n, sideX) <= SideYAsWritten(n, sideX)
  {
    var w := frame.width;
    MulMono(1, sideX, w);
    var cols := Columns(w, sideX * w);
    if cols > sideX {
      MulMono(sideX + 1, cols, w);
    } else if cols < sideX {
      MulMono(cols + 1, sideX, w);
    }
    var (row, col) := Slot(k, sideX);
    var sideY := SideY(n, sideX);
    if row >= sideY {
      MulMono(sideY, row, sideX);
    }
  }
}

=== FILE: save_records.dfy ===
/**
 * The save-record side of src/Serializers.cpp: the fields each record
 * writes and the rules by which a load puts them back. A Lua table is a
 * map from field name to value; pointers are written as ids through a map
 * supplied by the caller and read back through its inverse.
 */
module SaveRecords {
  import opened Optional
  import opened EasingCurve
  import opened EnumCodecs

  /** A value stored in a save table. */
  datatype Value =
    | Nil
    | Str(s: string)
    | Num(x: real)
    | Vec2(x: real, y: real)
    | Ref(id: int)
    | Table(fields: map<string, Value>)
    | List(items: seq<Value>)

  type Record = map<string, Value>

  /** The opaque identity of a sprite (the animated target). */
  type SpriteId = nat

  /** The identity of an animation node. */
  type AnimId = nat

  // ---------------------------------------------------------------------
  // Field access. A field that is absent or holds the wrong kind of value
  // makes the load fail.

  function GetString(t: Record, key: string): (r: Result<string>)
    ensures r.Success? <==> key in t && t[key].Str?
    ensures r.Success? ==> t[key] == Str(r.value)
  {
    if key in t && t[key].Str? then Success(t[key].s) else Failure(MissingField(key))
  }

  function GetNumber(t: Record, key: string): (r: Result<real>)
    ensures r.Success? <==> key in t && t[key].Num?
    ensures r.Success? ==> t[key] == Num(r.value)
  {
    if key in t && t[key].Num? then Success(t[key].x) else Failure(MissingField(key))
  }

  function GetVec2(t: Record, key: string): (r: Result<(real, real)>)
    ensures r.Success? <==> key in t && t[key].Vec2?
    ensures r.Success? ==> t[key] == Vec2(r.value.0, r.value.1)
  {
    if key in t && t[key].Vec2? then Success((t[key].x, t[key].y)) else Failure(MissingField(key))
  }

  function GetTable(t: Record, key: string): (r: Result<Record>)
    ensures r.Success? <==> key in t && t[key].Table?
    ensures r.Success? ==> t[key] == Table(r.value)
  {
    if key in t && t[key].Table? then Success(t[key].fields) else Failure(MissingField(key))
  }

  function GetList(t: Record, key: string): (r: Result<seq<Value>>)
    ensures r.Success? <==> key in t && t[key].List?
    ensures r.Success? ==> t[key] == List(r.value)
  {
    if key in t && t[key].List? then Success(t[key].items) else Failure(MissingField(key))
  }

  // ---------------------------------------------------------------------
  // Pointers, written as ids.

  /** `ids` and `objects` undo each other on every object that has an id. */
  predicate Inverse<T(==)>(ids: map<T, int>, objects: map<int, T>) {
    forall o :: o in ids ==> ids[o] in objects && objects[ids[o]] == o
  }

  /** A pointer is written as its id; a null or unregistered pointer as Nil. */
  function SavePtr<T(==)>(p: Option<T>, ids: map<T, int>): (v: Value)
    ensures v.Ref? <==> p.Some? && p.value in ids
    ensures v.Ref? ==> v.id == ids[p.value]
    ensures !v.Ref? ==> v == Nil
  {
    if p.Some? && p.value in ids then Ref(ids[p.value]) else Nil
  }

  /** A field that does not name a known id reads back as a null pointer. */
  function LoadPtr<T>(t: Record, key: string, objects: map<int, T>): (r: Option<T>)
    ensures r.Some? <==> key in t && t[key].Ref? && t[key].id in objects
    ensures r.Some? ==> r.value == objects[t[key].id]
  {
    if key in t && t[key].Ref? && t[key].id in objects then Some(objects[t[key].id]) else None
  }

  /** A registered pointer and a null pointer both survive a save and a load. */
  lemma PtrRoundTrip<T>(p: Option<T>, ids: map<T, int>, objects: map<int, T>, t: Record, key: string)
    requires Inverse(ids, objects)
    requires p.Some? ==> p.value in ids
    requires key in t && t[key] == SavePtr(p, ids)
    ensures LoadPtr(t, key, objects) == p
  {
  }

  // ---------------------------------------------------------------------
  // Easing curve record.

  /** The seven curve fields a save writes. */
  const CurveKeys: set<string> :=
    {"type", "direction", "loop_mode", "start_time", "end_time", "scale", "shift"}

  /** Each curve field is present with the kind of value a save writes. */
  predicate CurveFieldsPresent(t: Record) {
    && "type" in t && t["type"].Str?
    && "direction" in t && t["direction"].Str?
    && "loop_mode" in t && t["loop_mode"].Str?
    && "start_time" in t && t["start_time"].Num?
    && "end_time" in t && t["end_time"].Num?
    && "scale" in t && t["scale"].Num?
    && "shift" in t && t["shift"].Num?
  }

  function SaveCurve(c: Curve): (t: Record)
    ensures t.Keys == CurveKeys
  {
    map["type" := Str(EncodeEasing(c.easing)),
        "direction" := Str(EncodeDirection(c.direction)),
        "loop_mode" := Str(EncodeLoopMode(c.loopMode)),
        "start_time" := Num(c.start),
        "end_time" := Num(c.end),
        "scale" := Num(c.scale),
        "shift" := Num(c.shift)]
  }

  /**
   * Reads the seven fields into an existing curve through its setters;
   * the cursor (time and live direction) of that curve is kept.
   */
  function LoadCurve(t: Record, into: Curve): (r: Result<Curve>)
    ensures r.Success? <==> CurveFieldsPresent(t)
    ensures r.Success? ==> r.value.time == into.time && r.value.forward == into.forward
    ensures r.Success? ==> r.value.start == t["start_time"].x && r.value.end == t["end_time"].x
    ensures r.Success? ==> r.value.scale == t["scale"].x && r.value.shift == t["shift"].x
    ensures r.Success? ==> r.value.easing == DecodeEasing(t["type"].s)
    ensures r.Success? ==> r.value.direction == DecodeDirection(t["direction"].s)
    ensures r.Success? ==> r.value.loopMode == DecodeLoopMode(t["loop_mode"].s)
  {
    var ty :- GetString(t, "type");
    var dir :- GetString(t, "direction");
    var loop :- GetString(t, "loop_mode");
    var start :- GetNumber(t, "start_time");
    var end :- GetNumber(t, "end_time");
    var scale :- GetNumber(t, "scale");
    var shift :- GetNumber(t, "shift");
    Success(into.(easing := DecodeEasing(ty), direction := DecodeDirection(dir),
                  loopMode := DecodeLoopMode(loop), start := start, end := end,
                  scale := scale, shift := shift))
  }

  /** The saved curve restores its seven persisted fields and nothing else. */
  lemma CurveRoundTrip(c: Curve, into: Curve)
    ensures LoadCurve(SaveCurve(c), into) ==
            Success(c.(time := into.time, forward := into.forward))
  {
  }

  /** Time and the live direction are not persisted: the cursor does not change the record. */
  lemma CurveSaveIgnoresCursor(c: Curve, time: real, forward: bool)
    ensures SaveCurve(c.(time := time, forward := forward)) == SaveCurve(c)
  {
  }

  // ---------------------------------------------------------------------
  // Grid animation parameters.

  datatype ParamType = FloatParam | Vector2fParam

  /** A parameter descriptor of a grid function. */
  datatype ParamInfo = ParamInfo(name: string, ptype: ParamType)

  /** A catalog entry: a named deformation with ordered parameter descriptors. */
  datatype GridFunction = GridFunction(name: string, params: seq<ParamInfo>)

  /** A parameter value; `value1` is used only by two-component parameters. */
  datatype GridParam = GridParam(value0: real, value1: real)

  datatype GridAnim = GridAnim(
    sprite: Option<SpriteId>,
    speed: real,
    curve: Curve,
    fn: Option<GridFunction>,
    parameters: seq<GridParam>)

  /** There is a value slot for each parameter of the bound function. */
  predicate HasSlots(g: GridAnim) {
    g.fn.Some? ==> |g.fn.value.params| <= |g.parameters|
  }

  /** One entry of the `parameters` list: the name, then one or two numbers. */
  function SaveParam(info: ParamInfo, p: GridParam): Record {
    map["name" := Str(info.name),
        "value" := match info.ptype
                   case FloatParam => Num(p.value0)
                   case Vector2fParam => Vec2(p.value0, p.value1)]
  }

  /** One entry per parameter of the function, in parameter order. */
  function SaveParams(f: GridFunction, ps: seq<GridParam>): (r: seq<Value>)
    requires |f.params| <= |ps|
    ensures |r| == |f.params|
    ensures forall i :: 0 <= i < |r| ==> r[i] == Table(SaveParam(f.params[i], ps[i]))
  {
    seq(|f.params|, i requires 0 <= i < |f.params| => Table(SaveParam(f.params[i], ps[i])))
  }

  /**
   * The grid animation record. The function name and the parameter list
   * are written only when a function is bound.
   */
  function SaveGrid(g: GridAnim, spriteIds: map<SpriteId, int>): (t: Record)
    requires HasSlots(g)
    ensures "function_name" in t <==> g.fn.Some?
    ensures "parameters" in t <==> g.fn.Some?
    ensures g.fn.Some? ==>
              t["function_name"] == Str(g.fn.value.name) &&
              t["parameters"].List? && |t["parameters"].items| == |g.fn.value.params|
    ensures "speed" in t && t["speed"] == Num(g.speed)
    ensures "curve" in t && t["curve"] == Table(SaveCurve(g.curve))
  {
    var base := map["sprite" := SavePtr(g.sprite, spriteIds),
                    "speed" := Num(g.speed),
                    "curve" := Table(SaveCurve(g.curve))];
    match g.fn
    case None => base
    case Some(f) =>
      base["function_name" := Str(f.name)]["parameters" := List(SaveParams(f, g.parameters))]
  }

  /** Entry i is applied: it is a table whose name is the name of the function's parameter i. */
  predicate EntryMatches(entries: seq<Value>, i: nat, f: GridFunction) {
    i < |entries| && i < |f.params| && entries[i].Table? &&
    "name" in entries[i].fields && entries[i].fields["name"] == Str(f.params[i].name)
  }

  /** A field of a record, or Nil when it is absent. */
  function Field(t: Record, key: string): Value {
    if key in t then t[key] else Nil
  }

  /**
   * What an applied entry leaves in its slot: FLOAT sets value0 only,
   * VECTOR2F sets both. A value of the wrong kind fails the load, so the
   * last case is never the outcome of a successful load.
   */
  function Applied(p: GridParam, ptype: ParamType, v: Value): GridParam {
    match (ptype, v)
    case (FloatParam, Num(x)) => p.(value0 := x)
    case (Vector2fParam, Vec2(x, y)) => GridParam(x, y)
    case _ => p
  }

  /**
   * The loading loop over the `parameters` list, from entry i on: an entry
   * whose name matches parameter i writes slot i by the parameter's type;
   * any other entry is skipped. An entry beyond the function's parameters
   * or the animation's slots is an out-of-range access.
   */
  function LoadParamsFrom(entries: seq<Value>, i: nat, f: GridFunction, ps: seq<GridParam>): (r: Result<seq<GridParam>>)
    requires i <= |entries|
    ensures r.Success? ==> |r.value| == |ps|
    decreases |entries| - i
  {
    if i == |entries| then Success(ps)
    else if !entries[i].Table? then Failure(MissingField("name"))
    else
      var entry := entries[i].fields;
      var name :- GetString(entry, "name");
      if i >= |f.params| then Failure(IndexOutOfRange(i))
      else if f.params[i].name != name then LoadParamsFrom(entries, i + 1, f, ps)
      else if i >= |ps| then Failure(IndexOutOfRange(i))
      else match f.params[i].ptype
        case FloatParam =>
          var v :- GetNumber(entry, "value");
          LoadParamsFrom(entries, i + 1, f, ps[i := ps[i].(value0 := v)])
        case Vector2fParam =>
          var v :- GetVec2(entry, "value");
          LoadParamsFrom(entries, i + 1, f, ps[i := GridParam(v.0, v.1)])
  }

  /**
   * Entry j does not stop the load: it is a table with a string name, j is
   * one of the function's parameters, and when the name matches, slot j
   * exists and `value` has the kind the parameter's type reads. A
   * mismatched name is skipped.
   */
  predicate EntryLoads(entries: seq<Value>, j: nat, f: GridFunction, slots: nat) {
    j < |entries| && entries[j].Table? &&
    GetString(entries[j].fields, "name").Success? && j < |f.params| &&
    (f.params[j].name == entries[j].fields["name"].s ==>
       j < slots &&
       match f.params[j].ptype
       case FloatParam => GetNumber(entries[j].fields, "value").Success?
       case Vector2fParam => GetVec2(entries[j].fields, "value").Success?)
  }

  /** The loop from entry i on succeeds exactly when every remaining entry loads. */
  lemma {:induction false} LoadParamsFromSucceeds(entries: seq<Value>, i: nat, f: GridFunction, ps: seq<GridParam>)
    requires i <= |entries|
    ensures LoadParamsFrom(entries, i, f, ps).Success? <==>
              forall j :: i <= j < |entries| ==> EntryLoads(entries, j, f, |ps|)
    decreases |entries| - i
  {
    if i < |entries| && EntryLoads(entries, i, f, |ps|) {
      var entry := entries[i].fields;
      if f.params[i].name != entry["name"].s {
        LoadParamsFromSucceeds(entries, i + 1, f, ps);
      } else {
        var ps' := ps[i := Applied(ps[i], f.params[i].ptype, entry["value"])];
        assert LoadParamsFrom(entries, i, f, ps) == LoadParamsFrom(entries, i + 1, f, ps');
        LoadParamsFromSucceeds(entries, i + 1, f, ps');
      }
    }
  }

  /**
   * The whole `parameters` list. It loads exactly when every entry loads,
   * a mismatched name being skipped; a successful load writes slot j from
   * entry j exactly when that entry names parameter j; every other slot is
   * kept.
   */
  function LoadParams(entries: seq<Value>, f: GridFunction, ps: seq<GridParam>): (r: Result<seq<GridParam>>)
    ensures r.Success? <==> forall j :: 0 <= j < |entries| ==> EntryLoads(entries, j, f, |ps|)
    ensures r.Success? ==> |r.value| == |ps|
    ensures r.Success? ==> forall j :: 0 <= j < |ps| ==>
              r.value[j] == (if EntryMatches(entries, j, f)
                             then Applied(ps[j], f.params[j].ptype, Field(entries[j].fields, "value"))
                             else ps[j])
  {
    var r := LoadParamsFrom(entries, 0, f, ps);
    LoadParamsFromSucceeds(entries, 0, f, ps);
    if r.Success? then LoadParamsPointwise(entries, 0, f, ps); r else r
  }

  /**
   * A successful load is positional and name-checked: slot j holds the
   * value of entry j exactly when that entry names parameter j, and is
   * otherwise unchanged.
   */
  lemma {:induction false} LoadParamsPointwise(entries: seq<Value>, i: nat, f: GridFunction, ps: seq<GridParam>)
    requires i <= |entries|
    requires LoadParamsFrom(entries, i, f, ps).Success?
    ensures forall j :: 0 <= j < |ps| ==>
              LoadParamsFrom(entries, i, f, ps).value[j] ==
                (if i <= j && EntryMatches(entries, j, f)
                 then Applied(ps[j], f.params[j].ptype, Field(entries[j].fields, "value"))
                 else ps[j])
    decreases |entries| - i
  {
    if i < |entries| {
      var entry := entries[i].fields;
      if f.params[i].name != entry["name"].s {
        LoadParamsPointwise(entries, i + 1, f, ps);
      } else {
        var ps' := ps[i := Applied(ps[i], f.params[i].ptype, entry["value"])];
        assert LoadParamsFrom(entries, i, f, ps) == LoadParamsFrom(entries, i + 1, f, ps');
        LoadParamsPointwise(entries, i + 1, f, ps');
      }
    }
  }

  /** The entries written for a function load back into any slots of the right number. */
  lemma {:induction false} SavedParamsLoad(f: GridFunction, ps: seq<GridParam>, qs: seq<GridParam>, i: nat)
    requires |f.params| <= |ps| && |f.params| <= |qs|
    requires i <= |f.params|
    ensures LoadParamsFrom(SaveParams(f, ps), i, f, qs).Success?
    decreases |f.params| - i
  {
    var entries := SaveParams(f, ps);
    if i < |f.params| {
      assert entries[i].fields["name"] == Str(f.params[i].name);
      match f.params[i].ptype
      case FloatParam =>
        SavedParamsLoad(f, ps, qs[i := qs[i].(value0 := ps[i].value0)], i + 1);
      case Vector2fParam =>
        SavedParamsLoad(f, ps, qs[i := GridParam(ps[i].value0, ps[i].value1)], i + 1);
    }
  }

  /**
   * Saving a function's parameters and loading them into slots for the same
   * function restores every value0, and value1 of every two-component
   * parameter; value1 of a FLOAT parameter keeps what the slot held.
   */
  lemma ParamsRoundTrip(f: GridFunction, ps: seq<GridParam>, qs: seq<GridParam>)
    requires |f.params| <= |ps| && |f.params| <= |qs|
    ensures LoadParams(SaveParams(f, ps), f, qs).Success?
    ensures |LoadParams(SaveParams(f, ps), f, qs).value| == |qs|
    ensures forall j :: 0 <= j < |f.params| ==>
              LoadParams(SaveParams(f, ps), f, qs).value[j].value0 == ps[j].value0
    ensures forall j :: 0 <= j < |f.params| ==>
              LoadParams(SaveParams(f, ps), f, qs).value[j].value1 ==
                (if f.params[j].ptype == Vector2fParam then ps[j].value1 else qs[j].value1)
    ensures forall j :: |f.params| <= j < |qs| ==> LoadParams(SaveParams(f, ps), f, qs).value[j] == qs[j]
  {
    var entries := SaveParams(f, ps);
    SavedParamsLoad(f, ps, qs, 0);
    LoadParamsPointwise(entries, 0, f, qs);
    forall j | 0 <= j < |f.params|
      ensures EntryMatches(entries, j, f)
    {
      assert entries[j].fields["name"] == Str(f.params[j].name);
    }
  }

  // ---------------------------------------------------------------------
  // Grid animation record: the loader as written and with the function bound.

  /** Sprite, speed and curve, common to both loaders. */
  function LoadGridCommon(t: Record, into: GridAnim, sprites: map<int, SpriteId>): (r: Result<GridAnim>)
    ensures r.Success? <==> GetNumber(t, "speed").Success? && GetTable(t, "curve").Success? &&
                            LoadCurve(t["curve"].fields, into.curve).Success?
    ensures r.Success? ==> r.value.fn == into.fn && r.value.parameters == into.parameters
    ensures r.Success? ==> r.value.speed == t["speed"].x && r.value.sprite == LoadPtr(t, "sprite", sprites)
    ensures r.Success? ==> LoadCurve(t["curve"].fields, into.curve) == Success(r.value.curve)
  {
    var speed :- GetNumber(t, "speed");
    var curveTable :- GetTable(t, "curve");
    var curve :- LoadCurve(curveTable, into.curve);
    Success(into.(sprite := LoadPtr(t, "sprite", sprites), speed := speed, curve := curve))
  }

  /** The function named by the record, when the field is there and the catalog knows it. */
  function FindFunction(t: Record, catalog: map<string, GridFunction>): (r: Option<GridFunction>)
    ensures r.Some? <==> "function_name" in t && t["function_name"].Str? && t["function_name"].s in catalog
    ensures r.Some? ==> r.value == catalog[t["function_name"].s]
  {
    if "function_name" in t && t["function_name"].Str? && t["function_name"].s in catalog
    then Some(catalog[t["function_name"].s])
    else None
  }

  /**
   * The loader as written: it looks the function up and loads the
   * parameters against it, but never binds it to the animation, so the
   * animation keeps whatever function (and slots) it had.
   */
  function LoadGridAsWritten(t: Record, into: GridAnim, catalog: map<string, GridFunction>,
                             sprites: map<int, SpriteId>): (r: Result<GridAnim>)
    ensures r.Success? <==>
              LoadGridCommon(t, into, sprites).Success? &&
              (FindFunction(t, catalog).Some? ==>
                 GetList(t, "parameters").Success? &&
                 LoadParams(t["parameters"].items, FindFunction(t, catalog).value, into.parameters).Success?)
    ensures r.Success? ==> r.value == LoadGridCommon(t, into, sprites).value.(parameters := r.value.parameters)
    ensures r.Success? ==> r.value.fn == into.fn
    ensures r.Success? ==> |r.value.parameters| == |into.parameters|
    ensures r.Success? && FindFunction(t, catalog).None? ==> r.value.parameters == into.parameters
    ensures r.Success? && FindFunction(t, catalog).Some? ==>
              LoadParams(t["parameters"].items, FindFunction(t, catalog).value, into.parameters)
                == Success(r.value.parameters)
  {
    var a :- LoadGridCommon(t, into, sprites);
    match FindFunction(t, catalog)
    case None => Success(a)
    case Some(f) =>
      var entries :- GetList(t, "parameters");
      var ps :- LoadParams(entries, f, a.parameters);
      Success(a.(parameters := ps))
  }

  /** Binding a function discards the old slots and gives one cleared slot per parameter. */
  function BindFunction(a: GridAnim, f: GridFunction): (r: GridAnim)
    ensures r.fn == Some(f) && HasSlots(r) && |r.parameters| == |f.params|
    ensures r.sprite == a.sprite && r.speed == a.speed && r.curve == a.curve
  {
    a.(fn := Some(f), parameters := seq(|f.params|, _ => GridParam(0.0, 0.0)))
  }

  /** The loader with the looked-up function bound before its parameters are read. */
  function LoadGrid(t: Record, into: GridAnim, catalog: map<string, GridFunction>,
                    sprites: map<int, SpriteId>): (r: Result<GridAnim>)
    requires HasSlots(into)
    ensures r.Success? <==>
              LoadGridCommon(t, into, sprites).Success? &&
              (FindFunction(t, catalog).Some? ==>
                 GetList(t, "parameters").Success? &&
                 LoadParams(t["parameters"].items, FindFunction(t, catalog).value,
                            BindFunction(into, FindFunction(t, catalog).value).parameters).Success?)
    ensures r.Success? ==> HasSlots(r.value)
    ensures r.Success? ==> r.value.fn == (if FindFunction(t, catalog).Some? then FindFunction(t, catalog) else into.fn)
    ensures r.Success? && FindFunction(t, catalog).None? ==> r.value == LoadGridCommon(t, into, sprites).value
    ensures r.Success? && FindFunction(t, catalog).Some? ==>
              r.value == BindFunction(LoadGridCommon(t, into, sprites).value, FindFunction(t, catalog).value)
                           .(parameters := r.value.parameters) &&
              LoadParams(t["parameters"].items, FindFunction(t, catalog).value,
                         BindFunction(into, FindFunction(t, catalog).value).parameters)
                == Success(r.value.parameters)
  {
    var a :- LoadGridCommon(t, into, sprites);
    match FindFunction(t, catalog)
    case None => Success(a)
    case Some(f) =>
      var entries :- GetList(t, "parameters");
      var ps :- LoadParams(entries, f, BindFunction(a, f).parameters);
      Success(BindFunction(a, f).(parameters := ps))
  }

  /**
   * As written, a saved animation with a bound function, loaded into an
   * animation with none, comes back with none: saving it again drops the
   * function name and every parameter. The target has one parameter slot;
   * with none, the parameter loop would read past the slots instead.
   */
  lemma LoadGridAsWrittenLosesFunction()
    ensures var f := GridFunction("wave", [ParamInfo("amplitude", FloatParam)]);
            var g := GridAnim(None, 1.0, NewCurve(Linear, Disabled, Forward), Some(f), [GridParam(2.0, 0.0)]);
            var into := GridAnim(None, 1.0, NewCurve(Linear, Disabled, Forward), None, [GridParam(0.0, 0.0)]);
            var r := LoadGridAsWritten(SaveGrid(g, map[]), into, map["wave" := f], map[]);
            r.Success? && r.value.fn == None && "function_name" !in SaveGrid(r.value, map[])
  {
    var f := GridFunction("wave", [ParamInfo("amplitude", FloatParam)]);
    var g := GridAnim(None, 1.0, NewCurve(Linear, Disabled, Forward), Some(f), [GridParam(2.0, 0.0)]);
    var into := GridAnim(None, 1.0, NewCurve(Linear, Disabled, Forward), None, [GridParam(0.0, 0.0)]);
    var t := SaveGrid(g, map[]);
    CurveRoundTrip(g.curve, into.curve);
    assert FindFunction(t, map["wave" := f]) == Some(f);
    ParamsRoundTrip(f, g.parameters, into.parameters);
  }

  /**
   * With the function bound, a grid animation survives a save and a load:
   * sprite, speed, the persisted curve fields, the function and every
   * persisted parameter value come back.
   */
  lemma GridRoundTrip(g: GridAnim, into: GridAnim, catalog: map<string, GridFunction>,
                      spriteIds: map<SpriteId, int>, sprites: map<int, SpriteId>)
    requires HasSlots(g) && HasSlots(into)
    requires Inverse(spriteIds, sprites)
    requires g.sprite.Some? ==> g.sprite.value in spriteIds
    requires g.fn.Some? ==> g.fn.value.name in catalog &&
                                  catalog[g.fn.value.name] == g.fn.value
    ensures var r := LoadGrid(SaveGrid(g, spriteIds), into, catalog, sprites);
            && r.Success?
            && r.value.sprite == g.sprite
            && r.value.speed == g.speed
            && r.value.curve == g.curve.(time := into.curve.time, forward := into.curve.forward)
            && (g.fn.Some? ==> r.value.fn == g.fn)
            && (g.fn.None? ==> r.value == LoadGridCommon(SaveGrid(g, spriteIds), into, sprites).value)
  {
    var t := SaveGrid(g, spriteIds);
    CurveRoundTrip(g.curve, into.curve);
    PtrRoundTrip(g.sprite, spriteIds, sprites, t, "sprite");
    if g.fn.Some? {
      var f := g.fn.value;
      assert FindFunction(t, catalog) == Some(f);
      ParamsRoundTrip(f, g.parameters, BindFunction(into, f).parameters);
    }
  }

  /**
   * The parameter values of a bound function survive the corrected round
   * trip: value0 always, value1 for two-component parameters.
   */
  lemma GridParamsRoundTrip(g: GridAnim, into: GridAnim, catalog: map<string, GridFunction>,
                            spriteIds: map<SpriteId, int>, sprites: map<int, SpriteId>, j: nat)
    requires HasSlots(g) && HasSlots(into)
    requires g.fn.Some? && g.fn.value.name in catalog &&
             catalog[g.fn.value.name] == g.fn.value
    requires j < |g.fn.value.params|
    ensures var r := LoadGrid(SaveGrid(g, spriteIds), into, catalog, sprites);
            && r.Success?
            && r.value.parameters[j].value0 == g.parameters[j].value0
            && (g.fn.value.params[j].ptype == Vector2fParam ==>
                  r.value.parameters[j].value1 == g.parameters[j].value1)
  {
    var t := SaveGrid(g, spriteIds);
    var f := g.fn.value;
    CurveRoundTrip(g.curve, into.curve);
    assert FindFunction(t, catalog) == Some(f);
    ParamsRoundTrip(f, g.parameters, BindFunction(into, f).parameters);
  }

  // ---------------------------------------------------------------------
  // Animation node header: type, name and parent.

  datatype AnimHeader = AnimHeader(animType: AnimType, name: string, parent: AnimId)

  function SaveAnimHeader(h: AnimHeader, animIds: map<AnimId, int>): (t: Record)
    ensures t.Keys == {"name", "parent", "type"}
  {
    map["name" := Str(h.name),
        "parent" := SavePtr(Some(h.parent), animIds),
        "type" := Str(EncodeAnimType(h.animType))]
  }

  /**
   * Reads a node header. An unknown type string reads as a parallel group;
   * a parent field that does not resolve to a loaded animation attaches the
   * node to the manager's root group.
   */
  function LoadAnimHeader(t: Record, animations: map<int, AnimId>, root: AnimId): (r: Result<AnimHeader>)
    ensures r.Success? <==> GetString(t, "type").Success? && GetString(t, "name").Success?
    ensures r.Success? ==> r.value.animType == DecodeAnimType(t["type"].s) && r.value.name == t["name"].s
    ensures r.Success? && LoadPtr(t, "parent", animations).None? ==> r.value.parent == root
    ensures r.Success? && LoadPtr(t, "parent", animations).Some? ==>
              r.value.parent == LoadPtr(t, "parent", animations).value
    ensures r.Success? ==> r.value.parent in animations.Values || r.value.parent == root
  {
    var ty :- GetString(t, "type");
    var name :- GetString(t, "name");
    var parent := match LoadPtr(t, "parent", animations)
                  case None => root
                  case Some(p) => p;
    Success(AnimHeader(DecodeAnimType(ty), name, parent))
  }

  /**
   * A node header survives a save and a load, whether its parent is a
   * saved group or the root group (which has no id of its own).
   */
  lemma AnimHeaderRoundTrip(h: AnimHeader, animIds: map<AnimId, int>, animations: map<int, AnimId>, root: AnimId)
    requires Inverse(animIds, animations)
    requires root !in animIds
    requires h.parent in animIds || h.parent == root
    ensures LoadAnimHeader(SaveAnimHeader(h, animIds), animations, root) == Success(h)
  {
    var t := SaveAnimHeader(h, animIds);
    if h.parent in animIds {
      PtrRoundTrip(Some(h.parent), animIds, animations, t, "parent");
    }
  }
}
